=== FILE: README.md ===
# Movie review front end: decision rules in Dafny

This project models the decision logic of a React client for a movie review
site. Visitors browse a catalog, logged-in users post one review per movie,
and administrators manage movies and users. Rendering and HTTP plumbing are
not modelled. What remains is a set of small, deterministic rules over
sessions, routes, pages, reviews and user rows. Each rule is written as a
pure Dafny function, and its properties are proved.

| module | file | source |
|---|---|---|
| `Js` | `js.dfy` | JavaScript conventions: truthiness, `a \|\| b`, ASCII `toLowerCase`, `trim` |
| `Entities` | `entities.dfy` | movie, review and category records as the server sends them |
| `AuthContext` | `auth_context.dfy` | `src/context/AuthContext.jsx` |
| `ProtectedRoute` | `protected_route.dfy` | `src/components/ProtectedRoute.jsx` |
| `AppRoutes` | `app_routes.dfy` | `src/App.jsx` |
| `LoginPage` | `login_page.dfy` | `src/pages/Login.jsx` |
| `ManageMovies` | `manage_movies.dfy` | `src/pages/admin/ManageMovies.jsx` |
| `MovieDetails` | `movie_details.dfy` | `src/pages/MovieDetails.jsx` |
| `ManageUsers` | `manage_users.dfy` | `src/pages/admin/ManageUsers.jsx` |
| `AdminLayout` | `admin_layout.dfy` | `src/pages/admin/AdminLayout.jsx` |
| `Navbar` | `navbar.dfy` | `src/components/Navbar.jsx` |
| `Flows` | `flows.dfy` | properties spanning the components above |

Modelling conventions:

- Every server call is an input. A `Reply` is either `Ok` or `Err` with the
  server's optional `error` string. Most fetches take `Option` bodies, where
  `None` means the request failed. The catalog page fetch is the exception:
  `ManageMovies.FinishFetch` takes a `FetchResult`, which tells a bare array
  from an object with `movies` and `totalPages`.
- `jwtDecode`, `JSON.stringify`, `JSON.parse` and `parseInt` are passed in as
  function parameters (`decode`, `stringify`, `parse`, `parseInt`). They are
  never interpreted.
- `window.confirm` is a boolean input. An `alert` shows up as a flag or as
  message text in the result.
- `null` and `undefined` are both `None`. A string in a condition is truthy
  iff it is present and non-empty (`Js.Truthy`).
- React effects are explicit steps. `AuthContext.Effect` is the token
  effect. `MovieDetails.RefetchDue` says when the detail page fetches the
  movie again.
- A location is a path that is empty or starts with `/`, as
  `location.pathname` always is (`AppRoutes.IsLocation`).

Behaviour of the code worth knowing:

- The catalog page has no search or category filter, and no
  last-request-wins ordering of fetches.
- A fetch never clamps the current page into the new page range
  (`ManageMovies.FetchCanLeavePageOutOfRange`).
- The `/admin` routes have no guard.
- Promote and demote have no local super-admin refusal, and the handlers
  send a request for any id. On the super admin's row the Demote and Delete
  buttons are hidden. Promote is not: a super viewer sees it there whenever
  that row's role reads `user` (`ManageUsers.SuperRowCanBePromoted`).
- Promote and demote controls depend only on the viewer's e-mail, not on
  the viewer's role.
- After a reload the identity is null while the token is already held. It
  stays null until the token effect runs
  (`AuthContext.ReloadedSessionNotYetSettled`).

## Model

| member | source | states |
|---|---|---|
| Js.ToLower | src/pages/admin/ManageUsers.jsx:92 | `toLowerCase()` keeps the length and maps each character on its own. The result has no upper-case letter, and a string without one is returned unchanged. |
| Js.OrElse | src/pages/Login.jsx:34 | `a \|\| fallback` is the value when it is a non-empty string and the fallback otherwise, so a non-empty fallback always gives a non-empty message |
| Js.Trim | src/pages/admin/ManageUsers.jsx:14 | `trim()` returns the infix of the input that starts after the leading whitespace. Everything cut from either end is whitespace, and the result neither starts nor ends with whitespace. |
| Js.LowerTrim | src/pages/admin/ManageUsers.jsx:14 | the normalised e-mail has no upper-case letter, has no surrounding whitespace, and is no longer than the input |
| Js.LowerTrimFixesNormalized | src/pages/admin/ManageUsers.jsx:15 | `toLowerCase().trim()` leaves a string unchanged exactly when the string is already lower-case and trimmed |
| Js.LowerTrimIdempotent | src/pages/admin/ManageUsers.jsx:14 | normalising an e-mail twice gives the same result as normalising it once |
| AuthContext.GetItem | src/context/AuthContext.jsx:11 | `localStorage.getItem` is present exactly when the key is stored, and is then the stored value |
| AuthContext.Initial | src/context/AuthContext.jsx:11-12 | on first render the token is the stored `token` item (or null) and the user is null |
| AuthContext.Effect | src/context/AuthContext.jsx:14-20 | a truthy token sets the user to its decoding. Otherwise the session is unchanged. The token and storage are never touched. |
| AuthContext.Login | src/context/AuthContext.jsx:23-31 | afterwards the token is `t` and the user is `decode(t)`. Storage maps `token` to `t` and `user` to the serialised claims. Every other storage key keeps its value. |
| AuthContext.Logout | src/context/AuthContext.jsx:33-37 | token and user are null and storage is empty, whatever the prior state |
| AuthContext.LoginIdempotent | src/context/AuthContext.jsx:23-31 | logging in twice with the same token gives the same state and storage as logging in once |
| AuthContext.LoginOverridesLogin | src/context/AuthContext.jsx:23-31 | a second login erases every trace of the first one |
| AuthContext.LogoutForgetsEverything | src/context/AuthContext.jsx:33-37 | the state after logout does not depend on the state before it |
| AuthContext.StoredUser | src/pages/admin/ManageUsers.jsx:11-12 | the admin pages' current user is null unless the `user` item is a non-empty string, and is then that item parsed |
| AuthContext.Step | src/context/AuthContext.jsx:14-37 | each of login, logout and the token effect keeps the user derived from the token, and leaves a truthy token with its decoded user |
| AuthContext.RunKeepsDerived | src/context/AuthContext.jsx:14-37 | any sequence of logins, logouts and effect runs keeps a non-null user equal to the decoding of the held token |
| AuthContext.ReachableIsDerived | src/context/AuthContext.jsx:10-37 | in every state reachable from the first render, the user is null or is the decoding of the token |
| AuthContext.RunSettles | src/context/AuthContext.jsx:14-37 | after any non-empty sequence of events, a truthy token has its decoded user |
| AuthContext.ReloadedSessionNotYetSettled | src/context/AuthContext.jsx:11-20 | after a reload with a stored token, the user is absent until the effect runs, and present after it |
| ProtectedRoute.ContextRole | src/components/ProtectedRoute.jsx:6 | `role` destructured from the context value is always absent, whatever the session |
| ProtectedRoute.UserRole | src/App.jsx:32 | `user?.role` is absent without a user, and is the user's role otherwise |
| ProtectedRoute.Decide | src/components/ProtectedRoute.jsx:8-11 | with no token the outcome is `/login`, whatever `adminOnly` and the role are. With a token, `adminOnly` and a non-admin role the outcome is `/movies`. The children render exactly when neither rule fires. |
| ProtectedRoute.Guard | src/components/ProtectedRoute.jsx:5-11 | as written: with a token, every `adminOnly` route redirects to `/movies` and every other route renders its children |
| ProtectedRoute.AdminTurnedAwayAsWritten | src/components/ProtectedRoute.jsx:6-9 | a logged-in user whose decoded role is `admin` is still turned away from an `adminOnly` route |
| ProtectedRoute.GuardByUserRole | src/components/ProtectedRoute.jsx:8-11 | the same two rules with the role read from `user.role`: a logged-in admin passes `adminOnly` and any other logged-in user is redirected |
| ProtectedRoute.GuardsAgreeWithoutAdminOnly | src/components/ProtectedRoute.jsx:5-11 | without `adminOnly`, the written guard and the corrected guard agree on every session |
| AppRoutes.Split | src/App.jsx:21-56 | the pieces of a path are non-empty and hold no `/`. With `SplitJoin`, splitting a path written from segments gives them back. |
| AppRoutes.Segments | src/App.jsx:21-56 | for a location, no pattern but the catch-all can match exactly when the path has an empty piece before its trailing slashes. Otherwise its segments are all non-empty. |
| AppRoutes.SegmentsOfJoin | src/App.jsx:21-56 | a path written from segments, followed by any number of slashes, yields exactly those segments |
| AppRoutes.TrailingSlashesIgnored | src/App.jsx:21-56 | adding slashes at the end of a path never changes its outcome |
| AppRoutes.EmptyPieceFallsThrough | src/App.jsx:55 | `//movies` and `/admin//users` match no pattern and go to `/`, whatever the session |
| AppRoutes.Match | src/App.jsx:21-56 | no segments is home. One segment `login`, `register`, `movies` or `admin` selects the login, register, catalog or admin index route, the admin index keeping the segment as typed. Two segments `movies/<x>` select the detail route with id `x`. `admin/dashboard`, `admin/users` and `admin/movies` select the three admin pages. All comparisons ignore case, and every other list of segments is the catch-all. |
| AppRoutes.RouteOutcome | src/App.jsx:21-56 | without a token both movie routes go to `/login`. The catalog sends an admin to `/admin/dashboard` and shows everyone else the list. The detail page checks only the token. `/admin/*` renders unguarded. Its index goes to `dashboard` under the admin segment as typed, so `/ADMIN` goes to `/ADMIN/dashboard`. `/`, `/login` and `/register` render. Anything else goes to `/`. The movie routes use the guard as written, `ProtectedRoute.Guard`. |
| AppRoutes.SplitJoin | src/App.jsx:21-56 | splitting a path written from segments gives those segments back |
| AppRoutes.Locate | src/App.jsx:21-56 | a location with an empty inner piece selects the catch-all, and any other selects what its segments match |
| AppRoutes.HomeIsOnlySlashes | src/App.jsx:22 | the home route is selected by exactly the locations made of slashes only |
| AppRoutes.DashboardUnder | src/App.jsx:47-49 | the relative index redirect lands on the dashboard: `/<seg>/dashboard` is a location that selects the dashboard page for every spelling `seg` of `admin` |
| AppRoutes.Resolve | src/App.jsx:21-56 | every navigation target is a location, and is `/login`, `/` or a path that selects the admin dashboard. The admin index goes to `/<typed>/dashboard`. The guard's redirect to `/login` happens exactly on a movie route without a token, and is the only one that replaces history. `/` is reached exactly from the catch-all, which takes every path no pattern accepts. |
| AppRoutes.OnlyMovieRoutesReadSession | src/App.jsx:22-55 | every route other than `/movies` and `/movies/:id` has the same outcome for every session |
| AppRoutes.DetailsIgnoresUser | src/App.jsx:37-44 | the detail route's outcome depends on the token alone, never on the user or role |
| AppRoutes.RedirectsLand | src/App.jsx:21-56 | every navigation the table issues reaches a rendered page in one hop, so there are no redirect chains or loops |
| LoginPage.InitialViewIdle | src/pages/Login.jsx:9-11 | the form first renders with no error and not loading |
| LoginPage.BeginSubmit | src/pages/Login.jsx:19 | submitting sets `loading` and keeps the error |
| LoginPage.Destination | src/pages/Login.jsx:28-32 | a successful login goes to `/admin/dashboard` exactly when the reply's role is `admin`, and to `/movies` otherwise |
| LoginPage.FinishSubmit | src/pages/Login.jsx:17-38 | `loading` ends false. Success logs in with exactly the reply's token and navigates by role. A reply without a user still logs in but reports "Login failed". A rejection leaves the session alone and shows the server's message or "Login failed". |
| LoginPage.FailureAlwaysExplained | src/pages/Login.jsx:33-34 | whenever no navigation happens, the form shows a non-empty error |
| ManageMovies.InitialStateInRange | src/pages/admin/ManageMovies.jsx:9-15 | the catalog starts loading on page 1 of 1, which is in range, with Prev and Next disabled |
| ManageMovies.QueryFor | src/pages/admin/ManageMovies.jsx:42-44 | the fetch asks for the current page with page size 4 |
| ManageMovies.BeginFetch | src/pages/admin/ManageMovies.jsx:40 | a fetch starts by setting `loading` and changes nothing else |
| ManageMovies.TotalPagesOf | src/pages/admin/ManageMovies.jsx:46 | the page count is the reply's `totalPages` when that is present and non-zero, and 1 otherwise |
| ManageMovies.MoviesOf | src/pages/admin/ManageMovies.jsx:45 | the list is the reply's `movies`, or the reply itself when it is a bare array |
| ManageMovies.FinishFetch | src/pages/admin/ManageMovies.jsx:39-52 | `loading` ends false and the current page never changes. A failed fetch keeps the movies and page count. A successful one replaces both. |
| ManageMovies.FetchKeepsPageCountPositive | src/pages/admin/ManageMovies.jsx:46 | the page count stays at least 1 after any fetch, unless the server reports a negative count |
| ManageMovies.FetchCanLeavePageOutOfRange | src/pages/admin/ManageMovies.jsx:39-52 | a fetch that shrinks the page count can leave the current page past the last page |
| ManageMovies.JumpTarget | src/pages/admin/ManageMovies.jsx:63-68 | with at least one page the jump lands in `[1, totalPages]`. From an in-range page it gives `min(cur+5, total)` forward and `max(cur-5, 1)` backward. With no pages it gives `totalPages`. |
| ManageMovies.Enabled | src/pages/admin/ManageMovies.jsx:188-201 | on an in-range page, Prev and the backward jump are enabled exactly when the page is past 1, and Next and the forward jump exactly when it is before the last page |
| ManageMovies.Click | src/pages/admin/ManageMovies.jsx:188-201 | a disabled button does nothing. Prev and Next move one page, and the two jump buttons land where `handleJump` says (`JumpTarget`). Only the current page changes. From an in-range page every button keeps the page in range. |
| ManageMovies.StepButtonsAtTheEnds | src/pages/admin/ManageMovies.jsx:189-200 | on an in-range page, Prev is disabled exactly on page 1 and Next exactly on the last page |
| ManageMovies.NextEnabledBeyondLastPage | src/pages/admin/ManageMovies.jsx:185-200 | with the bar on screen (more than one page) and the current page past the last one, Next stays enabled and moves further away |
| ManageMovies.Choose | src/pages/admin/ManageMovies.jsx:192 | picking a listed page makes it the current page, which is then in range |
| ManageMovies.PaginationOptions | src/pages/admin/ManageMovies.jsx:149-195 | the bar shows exactly when loading is over and there is more than one page, and its selector lists exactly `1..totalPages` in order |
| ManageMovies.NewMovieForm | src/pages/admin/ManageMovies.jsx:139 | a new movie form is blank. Its category is the first category's id when that id is truthy, and `""` when there is no category or the first id is missing or 0. |
| ManageMovies.EditForm | src/pages/admin/ManageMovies.jsx:91-103 | the edit form copies title and category unchanged, and replaces a missing author, director, year or image with `""` |
| ManageMovies.ParseField | src/pages/admin/ManageMovies.jsx:109-110 | coercion never yields null. A number stays that number, a missing value is NaN, and a typed string is what `parseInt` makes of it. |
| ManageMovies.Payload | src/pages/admin/ManageMovies.jsx:105-111 | `year` is null exactly when the form's year is falsy, and is parsed otherwise. `category_id` is parsed. Title, author, director and image are copied unchanged. |
| ManageMovies.EditedMovieRoundTrip | src/pages/admin/ManageMovies.jsx:94-111 | saving an unedited edit form sends back the movie's own year, category and title, whatever `parseInt` does |
| ManageMovies.SaveMovie | src/pages/admin/ManageMovies.jsx:105-124 | the form's mode decides between create and update, and an update targets the selected id. On success the modal closes and the page is fetched again. On failure the modal stays open with an alert. |
| ManageMovies.FinishFetchCategories | src/pages/admin/ManageMovies.jsx:54-61 | the categories are the reply's list, `[]` for an empty reply, or unchanged on failure |
| ManageMovies.ShowReviews | src/pages/admin/ManageMovies.jsx:70-79 | on success the modal opens with the fetched reviews and the movie's title. On failure only an alert appears. |
| ManageMovies.DeleteMovie | src/pages/admin/ManageMovies.jsx:81-89 | a request is sent exactly when confirmed. The page is fetched again on success and an alert appears on failure. |
| MovieDetails.UserId | src/pages/MovieDetails.jsx:35 | `user?.id` is absent without a user, and is the user's id otherwise |
| MovieDetails.AnyReviewBy | src/pages/MovieDetails.jsx:35 | `some` holds iff some review's `user_id` equals the given id, and a missing id matches a missing id |
| MovieDetails.HasReviewed | src/pages/MovieDetails.jsx:35 | the user has reviewed iff some review of the movie carries the current user's id |
| MovieDetails.AnyReviewByAppend | src/pages/MovieDetails.jsx:35 | a match in a concatenated list is a match in one of its parts |
| MovieDetails.PanelFor | src/pages/MovieDetails.jsx:85-134 | the form shows iff there is a token and no review. The notice shows iff there is a token and a review. The login prompt shows iff there is no token. |
| MovieDetails.RatingChoicesAreOneToFive | src/pages/MovieDetails.jsx:98 | the rating options are exactly 1 to 5, five of them |
| MovieDetails.ChooseRating | src/pages/MovieDetails.jsx:93-101 | picking a rating stores the option's one-digit string and keeps the comment |
| MovieDetails.SubmitReview | src/pages/MovieDetails.jsx:21-32 | an empty comment sends nothing. Otherwise the draft is posted with the route id. Success resets the draft to 5 stars and an empty comment, clears the error and flips `refresh`. Failure keeps the draft and shows the server's message or the default. |
| MovieDetails.RefetchDue | src/pages/MovieDetails.jsx:17-19 | the movie is fetched again whenever the route id changes. On the same id it is fetched again exactly when `refresh` changed. |
| MovieDetails.SubmitRefetchesOnlyOnSuccess | src/pages/MovieDetails.jsx:17-32 | on the same movie, a submission makes a re-fetch due exactly when a non-empty comment was posted and the server accepted it |
| MovieDetails.MovieLoaded | src/pages/MovieDetails.jsx:17-19 | a fetched movie replaces the shown one and leaves draft, error and `refresh` alone |
| MovieDetails.Section | src/pages/MovieDetails.jsx:37-134 | nothing is offered until the movie has loaded, and after that the panel follows the token and the reviewed test |
| MovieDetails.ReviewedUserSeesNoForm | src/pages/MovieDetails.jsx:85-121 | a logged-in user with a review on the movie sees the notice, never the form |
| MovieDetails.SubmitThenReload | src/pages/MovieDetails.jsx:17-32 | a successful submit makes a re-fetch due. Once the fetched list holds the new review by this user, the notice replaces the form. |
| ManageUsers.NormalizeEmail | src/pages/admin/ManageUsers.jsx:14 | a missing e-mail normalises to `""`. A present one normalises to its lower-cased, trimmed form, which is in normal form. |
| ManageUsers.SuperAdminEmailNormalized | src/pages/admin/ManageUsers.jsx:5-15 | the constant is non-empty and already lower-case and trimmed, so normalising it changes nothing |
| ManageUsers.IsSuperAdmin | src/pages/admin/ManageUsers.jsx:11-15 | the viewer is super admin iff their e-mail, lower-cased and trimmed, is the constant. A missing user or e-mail never is. |
| ManageUsers.TargetRole | src/pages/admin/ManageUsers.jsx:92 | a row's role is its lower-cased role name, or `""` when missing |
| ManageUsers.IsTargetSuper | src/pages/admin/ManageUsers.jsx:93-94 | a row is the super admin iff its normalised e-mail is the constant. A missing e-mail never is. |
| ManageUsers.SuperAdminRowExists | src/pages/admin/ManageUsers.jsx:93-94 | a row whose e-mail is the constant itself is the super admin's row, whatever its id, name and role |
| ManageUsers.RowControls | src/pages/admin/ManageUsers.jsx:110-124 | promote iff the viewer is super and the row's role is `user`. Demote iff the viewer is super, the role is `admin` and the row is not super. Delete iff the row is not super, whoever views. |
| ManageUsers.OrdinaryViewerHasNoRoleControls | src/pages/admin/ManageUsers.jsx:110-119 | a viewer who is not super admin sees no promote or demote control on any row |
| ManageUsers.SuperRowIsProtected | src/pages/admin/ManageUsers.jsx:115-124 | the super admin's row never offers demote or delete |
| ManageUsers.SuperRowCanBePromoted | src/pages/admin/ManageUsers.jsx:92-114 | promote is not hidden on the super admin's row: when its role reads `user`, a super viewer is offered it |
| ManageUsers.Badge | src/pages/admin/ManageUsers.jsx:105 | the badge reads "SUPER ADMIN" for the super admin and the normalised role otherwise |
| ManageUsers.RemoveId | src/pages/admin/ManageUsers.jsx:61 | a row survives the filter iff it was in the list and its id differs from the deleted id |
| ManageUsers.RemoveIdAppend | src/pages/admin/ManageUsers.jsx:61 | filtering distributes over concatenation, so the survivors keep their order |
| ManageUsers.RemoveAbsentId | src/pages/admin/ManageUsers.jsx:61 | a list without the id is returned exactly as it was |
| ManageUsers.RemoveIdIdempotent | src/pages/admin/ManageUsers.jsx:61 | filtering an id out twice gives the same list as doing it once |
| ManageUsers.HandleDelete | src/pages/admin/ManageUsers.jsx:53-65 | a missing e-mail throws and the super admin's e-mail is refused. Neither sends a request, and neither does a cancelled dialog. A request is sent iff the e-mail is present, not the super admin's, and confirmed. Success removes exactly that id and every other path leaves the list unchanged. |
| ManageUsers.SuperAdminNeverDeleted | src/pages/admin/ManageUsers.jsx:53-57 | the super admin's own delete call is refused and the list is kept, whatever the confirmation and reply |
| ManageUsers.HandleRoleChange | src/pages/admin/ManageUsers.jsx:33-51 | promote and demote send a request for the given id exactly when confirmed. They refetch on success and alert on failure. |
| ManageUsers.FinishFetchUsers | src/pages/admin/ManageUsers.jsx:17-27 | `loading` ends false. The list is replaced on success. On failure it is kept and an alert is shown, and an alert is shown only then. |
| AdminLayout.IsSuperAdmin | src/pages/admin/AdminLayout.jsx:9-13 | the shell is in super-admin mode iff the stored user has an e-mail whose lower-cased, trimmed form is the constant |
| AdminLayout.AgreesWithManageUsers | src/pages/admin/AdminLayout.jsx:12-13 | the shell and the user page give the same super-admin verdict for every stored user |
| AdminLayout.SidebarTitle | src/pages/admin/AdminLayout.jsx:38 | the title is "Super Admin" iff super-admin mode holds, and "CineAdmin" otherwise |
| AdminLayout.Highlighted | src/pages/admin/AdminLayout.jsx:44-53 | one mark per link, and a link is marked iff the location is exactly its target |
| AdminLayout.NavLinkTargetsDistinct | src/pages/admin/AdminLayout.jsx:16-20 | the dashboard, users and movies links have pairwise distinct targets |
| AdminLayout.AtMostOneHighlighted | src/pages/admin/AdminLayout.jsx:44-53 | at most one link is highlighted on any page |
| Navbar.View | src/components/Navbar.jsx:16-39 | Movies shows iff there is no user or the role is not `admin`. Register shows iff there is no token. The greeting and Logout show iff there is a token, and the greeting names the user's name and role. |
| Navbar.RegisterXorLogout | src/components/Navbar.jsx:21-38 | exactly one of Register and Logout is shown |
| Navbar.ClickLogout | src/components/Navbar.jsx:33 | the button logs out and then navigates to `/login` |
| Navbar.LoggedOutBar | src/components/Navbar.jsx:17-33 | after logout the bar shows Movies and Register, with no greeting and no Logout |
| Flows.AdminLoginLeavesCatalog | src/App.jsx:27-35 | after logging in with an admin token, `/movies` redirects to the dashboard and the bar hides Movies |
| Flows.LogoutLocksMovieRoutes | src/App.jsx:27-52 | after logout both movie routes redirect to `/login`, while the admin pages still render |
| Flows.LayoutFollowsLogin | src/context/AuthContext.jsx:28-30 | if parsing undoes serialising, the admin shell reads back the claims `login` stored. Its title follows the decoded token's e-mail. |
| Flows.MixedCaseAdminIndex | src/App.jsx:48 | `/ADMIN` redirects to `/ADMIN/dashboard`, which renders the dashboard. The sidebar compares paths exactly (`AdminLayout.Highlighted`), so it highlights no link there. |
| Flows.LogoutEndsSuperAdminMode | src/context/AuthContext.jsx:36 | after logout no user is stored, so the shell's title is "CineAdmin" |

## Left out

- HTTP calls through `api` are not modelled. Each is an input outcome: success with a body, or failure with an optional server message.
- `jwtDecode`, `JSON.stringify`, `JSON.parse` and `parseInt` are uninterpreted parameters. A malformed token, whose decoding throws, is not modelled.
- For a number-valued form field, `parseInt(String(n), 10)` is taken to be `n`. Exponent notation for very large numbers is not modelled.
- `window.confirm` is a boolean input, `alert` is a flag or message in the result, and `console.*` is ignored.
- `toLowerCase` folds ASCII letters only. Non-ASCII case mappings are not modelled.
- Routing takes the location path as a string that is empty or starts with `/`. Segments compare ignoring ASCII case, trailing slashes are ignored, and an empty piece anywhere else leads to the catch-all (`AppRoutes.Segments`). URL decoding, query strings and hashes are not modelled.
- MovieDetails.AnyReviewBy: `null` and `undefined` are both `None`, so a review whose `user_id` is `null` matches a viewer without an id. In the source `null === undefined` is false, so they do not match. Ids are taken to be either present or absent.
- Browser form validation (`required`, `type="email"`, `type="number"`) is not modelled for the login and movie forms. The review form's required comment is modelled.
- A movie list reply that is an object without a `movies` field would store the object itself. This is not modelled.
- React scheduling is not modelled. Effects are explicit steps, and overlapping fetches are not interleaved (the code has no stale-response guard either).
- `AdminLayout`'s `handleLogout` is left out because its button is commented out. The login page's `showRegister` state is left out because it is never set.
- `src/pages/admin/Dashboard.jsx` is left out: its only logic is floating-point averaging and chart data.
- `src/components/carousel/MovieCarousel.jsx`, `src/components/MovieCard.jsx` and `src/pages/Movies.jsx` are left out: they only render.
- `src/pages/Register.jsx` is left out: it is one request, a navigation and an error fallback.
- CSS class selection and markup are not modelled.

## Findings

| source | as written | input that shows it | evidently intended | confidence | as-written member | corrected member |
|---|---|---|---|---|---|---|
| src/components/ProtectedRoute.jsx:6 | `role` is read from the auth context value, which holds only `token`, `user`, `login` and `logout`, so it is always `undefined` | a session with a token whose decoded user has role `admin`, on a route wrapped with `adminOnly`: it is redirected to `/movies` | read the role from `user?.role` | not executed; medium, since no route passes `adminOnly` today | ProtectedRoute.AdminTurnedAwayAsWritten | ProtectedRoute.GuardByUserRole |

=== FILE: admin_layout.dfy ===
/**
 The admin shell: its own copy of the super-admin test (this one compares
 with the constant directly and yields false for a missing e-mail), the
 sidebar title, the three navigation links and which of them is highlighted.
 */
module AdminLayout {
  import opened Js
  import opened AuthContext
  import ManageUsers

  const SuperAdminEmail: string := "tewodrosayalew111@gmail.com"

  /** `currentUser?.email?.toLowerCase().trim() === SUPER_ADMIN_EMAIL`. */
  function IsSuperAdmin(currentUser: Option<Claims>): (b: bool)
    ensures b ==> currentUser.Some? && currentUser.value.email.Some?
    ensures currentUser.Some? && currentUser.value.email.Some? ==>
      (b <==> LowerTrim(currentUser.value.email.value) == SuperAdminEmail)
  {
    currentUser.Some? && currentUser.value.email.Some?
    && LowerTrim(currentUser.value.email.value) == SuperAdminEmail
  }

  /** The shell and the user page decide super-admin status alike for every
      stored user, although one normalises the constant and defaults a missing
      e-mail to `""` and the other does neither. */
  lemma AgreesWithManageUsers(currentUser: Option<Claims>)
    ensures IsSuperAdmin(currentUser) == ManageUsers.IsSuperAdmin(currentUser)
  {
  }

  function SidebarTitle(currentUser: Option<Claims>): (title: string)
    ensures title == "Super Admin" <==> IsSuperAdmin(currentUser)
    ensures title == "CineAdmin" <==> !IsSuperAdmin(currentUser)
  {
    if IsSuperAdmin(currentUser) then "Super Admin" else "CineAdmin"
  }

  datatype NavLink = NavLink(to: string, caption: string)

  const NavLinks: seq<NavLink> := [
    NavLink("/admin/dashboard", "Dashboard"),
    NavLink("/admin/users", "Manage Users"),
    NavLink("/admin/movies", "Manage Movies")
  ]

  /** A link is highlighted iff the location is exactly its target. */
  function Highlighted(pathname: string): (marks: seq<bool>)
    ensures |marks| == |NavLinks|
    ensures forall i :: 0 <= i < |NavLinks| ==> (marks[i] <==> pathname == NavLinks[i].to)
  {
    seq(|NavLinks|, i requires 0 <= i < |NavLinks| => pathname == NavLinks[i].to)
  }

  /** The link targets are pairwise distinct. */
  lemma NavLinkTargetsDistinct()
    ensures forall i, j :: 0 <= i < |NavLinks| && 0 <= j < |NavLinks| && NavLinks[i].to == NavLinks[j].to ==> i == j
  {
  }

  /** Hence at most one link is highlighted on any page. */
  lemma AtMostOneHighlighted(pathname: string, i: int, j: int)
    requires 0 <= i < |NavLinks| && 0 <= j < |NavLinks|
    requires Highlighted(pathname)[i] && Highlighted(pathname)[j]
    ensures i == j
  {
    NavLinkTargetsDistinct();
  }
}

=== FILE: app_routes.dfy ===
/**
 The route table of `AppRoutes`, as a function from a location path and the
 session to what is shown: a page, or a navigation to another path. Each
 route pattern is compiled to an anchored regular expression, without case
 sensitivity, that wants exactly one `/` before each segment and then any
 run of `/` up to the end of the path. So trailing slashes are ignored, an
 empty piece anywhere else matches no pattern, and segments compare ignoring
 ASCII case.
 */
module AppRoutes {
  import opened Js
  import opened AuthContext
  import opened ProtectedRoute

  datatype Route =
    | Home | LoginRoute | RegisterRoute
    | Catalog | Details(id: string)
    | AdminIndex(typed: string) | AdminDashboard | AdminUsers | AdminMovies
    | NoMatch

  datatype AdminSection = Dashboard | Users | MovieAdmin

  datatype Page =
    | Carousel | LoginForm | RegisterForm
    | MovieList | MovieDetail(id: string)
    | Admin(section: AdminSection)

  /** Render a page, or `<Navigate to=... replace=...>`. */
  datatype Outcome = Show(page: Page) | GoTo(to: string, replace: bool)

  const RootPath: string := "/"
  const AdminDashboardPath: string := "/admin/dashboard"

  // ---------------------------------------------------------------------
  // Path splitting and matching
  // ---------------------------------------------------------------------

  predicate IsSegment(seg: string) {
    seg != "" && '/' !in seg
  }

  predicate AreSegments(segs: seq<string>) {
    forall i :: 0 <= i < |segs| ==> IsSegment(segs[i])
  }

  /** The non-empty `/`-separated pieces of `path`, `cur` being the piece read so far. */
  function SplitFrom(path: string, cur: string): (segs: seq<string>)
    requires '/' !in cur
    ensures AreSegments(segs)
    decreases |path|
  {
    var done := if cur == "" then [] else [cur];
    if path == [] then done
    else if path[0] == '/' then done + SplitFrom(path[1..], "")
    else SplitFrom(path[1..], cur + [path[0]])
  }

  function Split(path: string): (segs: seq<string>)
    ensures AreSegments(segs)
  {
    SplitFrom(path, "")
  }

  /** Somewhere a `//` is followed, further on, by a character other than
      `/`: an empty piece before the trailing run of slashes. */
  predicate EmptyInnerPiece(path: string) {
    exists i, j :: 0 <= i && i + 1 < j < |path| && path[i] == '/' && path[i + 1] == '/' && path[j] != '/'
  }

  /** A location pathname starts with `/`; an empty one is read as `/`. */
  predicate IsLocation(path: string) {
    path == "" || path[0] == '/'
  }

  /** The segments the route patterns see in a location path, or `None` when
      no pattern but the catch-all can match it: the path has an empty piece
      before its trailing slashes. */
  function Segments(path: string): (r: Option<seq<string>>)
    requires IsLocation(path)
    ensures r.Some? ==> AreSegments(r.value)
    ensures r.None? <==> EmptyInnerPiece(path)
  {
    if EmptyInnerPiece(path) then None else Some(Split(path))
  }

  /** Segment comparison ignoring ASCII case. */
  predicate SegmentIs(seg: string, literal: string) {
    ToLower(seg) == literal
  }

  /** Which route element of the table a path's segments select. */
  function Match(segs: seq<string>): (r: Route)
    requires AreSegments(segs)
    ensures r == Home <==> segs == []
    ensures r == LoginRoute <==> |segs| == 1 && SegmentIs(segs[0], "login")
    ensures r == RegisterRoute <==> |segs| == 1 && SegmentIs(segs[0], "register")
    ensures r == Catalog <==> |segs| == 1 && SegmentIs(segs[0], "movies")
    ensures r.AdminIndex? <==> |segs| == 1 && SegmentIs(segs[0], "admin")
    ensures r.AdminIndex? ==> r.typed == segs[0]
    ensures r.Details? <==> |segs| == 2 && SegmentIs(segs[0], "movies")
    ensures r.Details? ==> r.id == segs[1]
    ensures r == AdminDashboard <==> |segs| == 2 && SegmentIs(segs[0], "admin") && SegmentIs(segs[1], "dashboard")
    ensures r == AdminUsers <==> |segs| == 2 && SegmentIs(segs[0], "admin") && SegmentIs(segs[1], "users")
    ensures r == AdminMovies <==> |segs| == 2 && SegmentIs(segs[0], "admin") && SegmentIs(segs[1], "movies")
    // everything else falls through to the catch-all
    ensures r == NoMatch <==>
      || |segs| > 2
      || (|segs| == 1 && !SegmentIs(segs[0], "login") && !SegmentIs(segs[0], "register")
                      && !SegmentIs(segs[0], "movies") && !SegmentIs(segs[0], "admin"))
      || (|segs| == 2 && !SegmentIs(segs[0], "movies")
                      && !(SegmentIs(segs[0], "admin") && (SegmentIs(segs[1], "dashboard")
                             || SegmentIs(segs[1], "users") || SegmentIs(segs[1], "movies"))))
  {
    if segs == [] then Home
    else if |segs| == 1 then
      if SegmentIs(segs[0], "login") then LoginRoute
      else if SegmentIs(segs[0], "register") then RegisterRoute
      else if SegmentIs(segs[0], "movies") then Catalog
      else if SegmentIs(segs[0], "admin") then AdminIndex(segs[0])
      else NoMatch
    else if |segs| == 2 then
      if SegmentIs(segs[0], "movies") then Details(segs[1])
      else if SegmentIs(segs[0], "admin") then
        if SegmentIs(segs[1], "dashboard") then AdminDashboard
        else if SegmentIs(segs[1], "users") then AdminUsers
        else if SegmentIs(segs[1], "movies") then AdminMovies
        else NoMatch
      else NoMatch
    else NoMatch
  }

  // ---------------------------------------------------------------------
  // What each route shows
  // ---------------------------------------------------------------------

  /** The element of each route for the session's `token` and `user`. */
  function RouteOutcome(route: Route, s: Session): (r: Outcome)
    // the two movie routes are wrapped in the guard
    ensures (route.Catalog? || route.Details?) && !Truthy(s.token) ==> r == GoTo(LoginPath, true)
    // the catalog sends admins to their dashboard and shows everyone else the list
    ensures route.Catalog? && Truthy(s.token) && UserRole(s) == Some(AdminRole) ==> r == GoTo(AdminDashboardPath, false)
    ensures route.Catalog? && Truthy(s.token) && UserRole(s) != Some(AdminRole) ==> r == Show(MovieList)
    // the detail page checks the token only
    ensures route.Details? && Truthy(s.token) ==> r == Show(MovieDetail(route.id))
    // the admin area has no guard at all
    // `<Navigate to="dashboard">` is relative: it keeps the admin segment as typed
    ensures route.AdminIndex? ==> r == GoTo("/" + route.typed + "/dashboard", false)
    ensures route.AdminDashboard? ==> r == Show(Admin(Dashboard))
    ensures route.AdminUsers? ==> r == Show(Admin(Users))
    ensures route.AdminMovies? ==> r == Show(Admin(MovieAdmin))
    // unguarded public pages, and the catch-all
    ensures route.Home? ==> r == Show(Carousel)
    ensures route.LoginRoute? ==> r == Show(LoginForm)
    ensures route.RegisterRoute? ==> r == Show(RegisterForm)
    ensures route.NoMatch? ==> r == GoTo(RootPath, false)
  {
    match route
    case Home => Show(Carousel)
    case LoginRoute => Show(LoginForm)
    case RegisterRoute => Show(RegisterForm)
    case Catalog =>
      (match Guard(s, false)
       case Redirect(to) => GoTo(to, true)
       case Children =>
         if UserRole(s) == Some(AdminRole) then GoTo(AdminDashboardPath, false) else Show(MovieList))
    case Details(id) =>
      (match Guard(s, false)
       case Redirect(to) => GoTo(to, true)
       case Children => Show(MovieDetail(id)))
    case AdminIndex(typed) => GoTo("/" + typed + "/dashboard", false)
    case AdminDashboard => Show(Admin(Dashboard))
    case AdminUsers => Show(Admin(Users))
    case AdminMovies => Show(Admin(MovieAdmin))
    case NoMatch => GoTo(RootPath, false)
  }

  /** A piece-splitting yields nothing exactly when no piece is under way
      and only slashes remain. */
  lemma {:induction false} SplitFromNothing(path: string, cur: string)
    requires '/' !in cur
    ensures SplitFrom(path, cur) == [] <==> cur == "" && forall i :: 0 <= i < |path| ==> path[i] == '/'
    decreases |path|
  {
    if path != [] {
      if path[0] == '/' {
        SplitFromNothing(path[1..], "");
        assert forall i :: 1 <= i < |path| ==> path[i] == path[1..][i - 1];
      } else {
        SplitFromNothing(path[1..], cur + [path[0]]);
      }
    }
  }

  /** The home route is selected by exactly the paths made of slashes only
      (`""`, `/`, `//`, ...). */
  lemma HomeIsOnlySlashes(path: string)
    requires IsLocation(path)
    ensures Locate(path) == Home <==> forall i :: 0 <= i < |path| ==> path[i] == '/'
  {
    SplitFromNothing(path, "");
  }

  /** The route element a location path selects. */
  function Locate(path: string): (r: Route)
    requires IsLocation(path)
    ensures Segments(path).None? ==> r == NoMatch
    ensures Segments(path).Some? ==> r == Match(Segments(path).value)
  {
    match Segments(path)
    case None => NoMatch
    case Some(segs) => Match(segs)
  }

  /** The whole table: a location path and a session to an outcome. */
  function Resolve(path: string, s: Session): (r: Outcome)
    requires IsLocation(path)
    // only the guard, the admin redirects and the catch-all navigate: to the
    // login page, to `/`, or to a location that selects the dashboard
    ensures r.GoTo? ==> IsLocation(r.to)
    ensures r.GoTo? ==> r.to == LoginPath || r.to == RootPath || Locate(r.to) == AdminDashboard
    ensures Locate(path).AdminIndex? ==> r == GoTo("/" + Locate(path).typed + "/dashboard", false)
    // the guard's redirect is the only one that replaces the history entry
    ensures r == GoTo(LoginPath, true) <==> !Truthy(s.token) && (Locate(path).Catalog? || Locate(path).Details?)
    ensures r.GoTo? && r.replace ==> r.to == LoginPath
    // the catch-all is the only way to `/`, and takes every path no pattern accepts
    ensures r == GoTo(RootPath, false) <==> Locate(path) == NoMatch
    ensures Segments(path).None? ==> r == GoTo(RootPath, false)
  {
    RedirectTargets(path, s);
    RouteOutcome(Locate(path), s)
  }

  /** Where the table's navigations lead. */
  lemma RedirectTargets(path: string, s: Session)
    requires IsLocation(path)
    ensures var r := RouteOutcome(Locate(path), s);
      r.GoTo? ==> IsLocation(r.to) && (r.to == LoginPath || r.to == RootPath || Locate(r.to) == AdminDashboard)
  {
    var route := Locate(path);
    if route.AdminIndex? {
      DashboardUnder(route.typed);
    } else if route.Catalog? {
      AdminDashboardPathSelectsDashboard();
    }
  }

  lemma AdminDashboardPathSelectsDashboard()
    ensures IsLocation(AdminDashboardPath) && Locate(AdminDashboardPath) == AdminDashboard
  {
    assert AdminDashboardPath == "/" + "admin" + "/dashboard";
    LowerLiteral("admin");
    DashboardUnder("admin");
  }

  /** Only the two movie routes look at the session. */
  lemma OnlyMovieRoutesReadSession(route: Route, s1: Session, s2: Session)
    requires !route.Catalog? && !route.Details?
    ensures RouteOutcome(route, s1) == RouteOutcome(route, s2)
  {
  }

  /** The detail page depends on the token alone, never on the role. */
  lemma DetailsIgnoresUser(id: string, s1: Session, s2: Session)
    requires s1.token == s2.token
    ensures RouteOutcome(Details(id), s1) == RouteOutcome(Details(id), s2)
  {
  }

  /** Reading a run of non-separator characters only extends the current piece. */
  lemma {:induction false} SplitFromWord(w: string, rest: string, cur: string)
    requires '/' !in cur && '/' !in w
    ensures SplitFrom(w + rest, cur) == SplitFrom(rest, cur + w)
    decreases |w|
  {
    if w == [] {
      assert w + rest == rest;
      assert cur + w == cur;
    } else {
      assert (w + rest)[0] == w[0];
      assert (w + rest)[1..] == w[1..] + rest;
      SplitFromWord(w[1..], rest, cur + [w[0]]);
      assert cur + [w[0]] + w[1..] == cur + w;
    }
  }

  /** A literal lower-case segment matches itself. */
  lemma LowerLiteral(w: string)
    requires NoUpper(w)
    ensures SegmentIs(w, w)
  {
    LowerFixesNoUpper(w);
  }

  /** A path written from segments: `/a/b` for `[a, b]`. */
  function Join(segs: seq<string>): (r: string)
    ensures segs == [] <==> r == ""
    ensures r != "" ==> r[0] == '/'
  {
    if segs == [] then "" else "/" + segs[0] + Join(segs[1..])
  }

  /** A run of `n` slashes. */
  function Slashes(n: nat): (r: string)
    ensures |r| == n
    ensures forall i :: 0 <= i < n ==> r[i] == '/'
  {
    seq(n, i => '/')
  }

  /** A run of slashes holds no segment. */
  lemma {:induction false} SplitFromSlashes(n: nat)
    ensures SplitFrom(Slashes(n), "") == []
  {
    if n > 0 {
      assert Slashes(n)[1..] == Slashes(n - 1);
      SplitFromSlashes(n - 1);
    }
  }

  /** Splitting a joined path followed by more text that starts at a
      separator: the current piece, the segments, then the pieces of the rest. */
  lemma {:induction false} SplitFromJoin(segs: seq<string>, cur: string, rest: string)
    requires '/' !in cur && AreSegments(segs)
    requires rest == [] || rest[0] == '/'
    ensures SplitFrom(Join(segs) + rest, cur) == (if cur == "" then [] else [cur]) + segs + SplitFrom(rest, "")
    decreases |segs|
  {
    if segs == [] {
      assert Join(segs) + rest == rest;
      if rest != [] {
        assert SplitFrom(rest, "") == SplitFrom(rest[1..], "");
      }
    } else {
      var tail := Join(segs[1..]) + rest;
      assert Join(segs) + rest == "/" + (segs[0] + tail);
      assert (Join(segs) + rest)[1..] == segs[0] + tail;
      var t := Join(segs[1..]);
      assert tail == [] || tail[0] == '/' by {
        if segs[1..] != [] {
          assert t[0] == '/';
          assert tail[0] == t[0];
        }
      }
      SplitFromWord(segs[0], tail, "");
      assert "" + segs[0] == segs[0];
      SplitFromJoin(segs[1..], segs[0], rest);
      assert [segs[0]] + segs[1..] == segs;
    }
  }

  /** Splitting a joined path gives back its segments. */
  lemma SplitJoin(segs: seq<string>)
    requires AreSegments(segs)
    ensures Split(Join(segs)) == segs
  {
    SplitFromJoin(segs, "", "");
    assert Join(segs) + "" == Join(segs);
  }

  /** A joined path never holds two slashes in a row. */
  lemma {:induction false} JoinNoDoubleSlash(segs: seq<string>)
    requires AreSegments(segs)
    ensures forall i :: 0 <= i && i + 1 < |Join(segs)| ==> !(Join(segs)[i] == '/' && Join(segs)[i + 1] == '/')
    decreases |segs|
  {
    if segs != [] {
      var w, t := segs[0], Join(segs[1..]);
      JoinNoDoubleSlash(segs[1..]);
      assert Join(segs) == "/" + w + t;
      forall i | 0 <= i && i + 1 < |Join(segs)|
        ensures !(Join(segs)[i] == '/' && Join(segs)[i + 1] == '/')
      {
        var p := Join(segs);
        if i + 1 <= |w| {
          assert p[i + 1] == w[i];
        } else if i == |w| {
          assert p[i] == w[i - 1];
        } else {
          assert p[i] == t[i - |w| - 1];
          assert p[i + 1] == t[i - |w|];
        }
      }
    }
  }

  /** A joined path followed by slashes starts at a separator and has no
      empty piece before its trailing slashes. */
  lemma JoinSlashesShape(segs: seq<string>, n: nat)
    requires AreSegments(segs)
    ensures var path := Join(segs) + Slashes(n);
      (path == "" || path[0] == '/') && !EmptyInnerPiece(path)
  {
    var j, path := Join(segs), Join(segs) + Slashes(n);
    if segs != [] {
      assert j[0] == '/';
    }
    JoinNoDoubleSlash(segs);
    forall i, k | 0 <= i && i + 1 < k < |path| && path[k] != '/'
      ensures !(path[i] == '/' && path[i + 1] == '/')
    {
      assert k < |j|;
      assert path[i] == j[i] && path[i + 1] == j[i + 1];
    }
  }

  /** Splitting a joined path followed by slashes gives back its segments. */
  lemma SplitJoinSlashes(segs: seq<string>, n: nat)
    requires AreSegments(segs)
    ensures Split(Join(segs) + Slashes(n)) == segs
  {
    SplitFromJoin(segs, "", Slashes(n));
    SplitFromSlashes(n);
    assert [] + segs + [] == segs;
  }

  /** The segments of a joined path followed by any run of slashes are the
      segments it was joined from: trailing slashes do not matter. */
  lemma SegmentsOfJoin(segs: seq<string>, n: nat)
    requires AreSegments(segs)
    ensures Segments(Join(segs) + Slashes(n)) == Some(segs)
  {
    JoinSlashesShape(segs, n);
    SplitJoinSlashes(segs, n);
  }

  /** With or without trailing slashes, a path leads to the same outcome. */
  lemma TrailingSlashesIgnored(segs: seq<string>, n: nat, s: Session)
    requires AreSegments(segs)
    ensures Resolve(Join(segs) + Slashes(n), s) == Resolve(Join(segs), s)
  {
    SegmentsOfJoin(segs, n);
    SegmentsOfJoin(segs, 0);
    assert Join(segs) + Slashes(0) == Join(segs);
  }

  /** An empty piece before the end is not skipped: `//movies` and
      `/admin//users` match no pattern, so they go to `/` whatever the session. */
  lemma EmptyPieceFallsThrough(s: Session)
    ensures Resolve("//movies", s) == GoTo(RootPath, false)
    ensures Resolve("/admin//users", s) == GoTo(RootPath, false)
  {
    var a, b := "//movies", "/admin//users";
    assert a[0] == '/' && a[1] == '/' && a[2] == 'm';
    assert EmptyInnerPiece(a);
    assert b[6] == '/' && b[7] == '/' && b[8] == 'u';
    assert EmptyInnerPiece(b);
  }

  lemma ResolveLogin(s: Session)
    ensures Resolve(LoginPath, s) == Show(LoginForm)
  {
    assert LoginPath == Join(["login"]) + Slashes(0);
    SegmentsOfJoin(["login"], 0);
    LowerLiteral("login");
  }

  lemma ResolveRoot(s: Session)
    ensures Resolve(RootPath, s) == Show(Carousel)
  {
  }

  /** `/<seg>/dashboard`, for a segment that reads `admin` in any case,
      selects the dashboard. */
  lemma DashboardUnder(seg: string)
    requires IsSegment(seg) && SegmentIs(seg, "admin")
    ensures IsLocation("/" + seg + "/dashboard")
    ensures Locate("/" + seg + "/dashboard") == AdminDashboard
  {
    var segs := [seg, "dashboard"];
    assert segs[1..] == ["dashboard"];
    assert Join(["dashboard"]) == "/dashboard" + Join([]);
    assert Join(segs) + Slashes(0) == "/" + seg + "/dashboard";
    SegmentsOfJoin(segs, 0);
    LowerLiteral("dashboard");
  }

  /** Every navigation the table issues lands on a page in one hop: there
      are no redirect chains or loops, whatever the session. */
  lemma RedirectsLand(path: string, s: Session)
    requires IsLocation(path) && Resolve(path, s).GoTo?
    ensures Resolve(Resolve(path, s).to, s).Show?
  {
    ResolveLogin(s);
    ResolveRoot(s);
  }
}

=== FILE: auth_context.dfy ===
/**
 The session store (`AuthProvider`): the React state pair `token` / `user`
 together with the browser's persisted key-value storage. `jwtDecode`,
 `JSON.stringify` and `JSON.parse` are not modelled; they are passed in as
 uninterpreted functions `decode`, `stringify` and `parse`.
 */
module AuthContext {
  import opened Js

  /** The claims `jwtDecode` returns; any of them may be absent. */
  datatype Claims = Claims(id: Option<int>, name: Option<string>, role: Option<string>, email: Option<string>)

  /** `localStorage`: string keys to string values. */
  type Storage = map<string, string>

  const TokenKey: string := "token"
  const UserKey: string := "user"

  datatype Session = Session(token: Option<string>, user: Option<Claims>, storage: Storage)

  /** `localStorage.getItem(key)`: the stored string or `null`. */
  function GetItem(storage: Storage, key: string): (r: Option<string>)
    ensures r.Some? <==> key in storage
    ensures r.Some? ==> r.value == storage[key]
  {
    if key in storage then Some(storage[key]) else None
  }

  /** The provider's first render: `token` comes from storage, `user` starts out null. */
  function Initial(storage: Storage): (s: Session)
    ensures s.token == GetItem(storage, TokenKey)
    ensures s.user == None
    ensures s.storage == storage
  {
    Session(GetItem(storage, TokenKey), None, storage)
  }

  /** The effect keyed on `token`: a truthy token is decoded into `user`;
      otherwise `user` is left as it was. */
  function Effect(s: Session, decode: string -> Claims): (r: Session)
    ensures r.token == s.token && r.storage == s.storage
    ensures Truthy(s.token) ==> r.user == Some(decode(s.token.value))
    ensures !Truthy(s.token) ==> r == s
  {
    if Truthy(s.token) then s.(user := Some(decode(s.token.value))) else s
  }

  /** `login(t)`: both state fields and both storage keys are replaced;
      every other storage key is kept. */
  function Login(s: Session, t: string, decode: string -> Claims, stringify: Claims -> string): (r: Session)
    ensures r.token == Some(t) && r.user == Some(decode(t))
    ensures GetItem(r.storage, TokenKey) == Some(t)
    ensures GetItem(r.storage, UserKey) == Some(stringify(decode(t)))
    ensures r.storage.Keys == s.storage.Keys + {TokenKey, UserKey}
    ensures forall k :: k in s.storage && k != TokenKey && k != UserKey ==> r.storage[k] == s.storage[k]
  {
    var claims := decode(t);
    Session(Some(t), Some(claims), s.storage[TokenKey := t][UserKey := stringify(claims)])
  }

  /** `logout()`: both state fields cleared and `localStorage.clear()`. */
  function Logout(s: Session): (r: Session)
    ensures r.token == None && r.user == None
    ensures r.storage == map[]
  {
    Session(None, None, map[])
  }

  /** `login(t)` twice is `login(t)` once. */
  lemma LoginIdempotent(s: Session, t: string, decode: string -> Claims, stringify: Claims -> string)
    ensures Login(Login(s, t, decode, stringify), t, decode, stringify) == Login(s, t, decode, stringify)
  {
  }

  /** The last login wins: an earlier login leaves no trace. */
  lemma LoginOverridesLogin(s: Session, t1: string, t2: string, decode: string -> Claims, stringify: Claims -> string)
    ensures Login(Login(s, t1, decode, stringify), t2, decode, stringify) == Login(s, t2, decode, stringify)
  {
  }

  /** After logout nothing of the prior state survives. */
  lemma LogoutForgetsEverything(s1: Session, s2: Session)
    ensures Logout(s1) == Logout(s2)
  {
  }

  /** `userData ? JSON.parse(userData) : null` as the admin pages read the stored user. */
  function StoredUser(storage: Storage, parse: string -> Option<Claims>): (r: Option<Claims>)
    ensures !Truthy(GetItem(storage, UserKey)) ==> r == None
    ensures Truthy(GetItem(storage, UserKey)) ==> r == parse(storage[UserKey])
  {
    if UserKey in storage && storage[UserKey] != "" then parse(storage[UserKey]) else None
  }

  // ---------------------------------------------------------------------
  // Consistency of the identity with the credential
  // ---------------------------------------------------------------------

  /** A non-null `user` is always the decoding of the held token. */
  predicate Derived(s: Session, decode: string -> Claims) {
    s.user.Some? ==> s.token.Some? && s.user.value == decode(s.token.value)
  }

  /** Once the effect has run, a truthy token always has its decoded user. */
  predicate Settled(s: Session, decode: string -> Claims) {
    Truthy(s.token) ==> s.user == Some(decode(s.token.value))
  }

  /** The three ways the session changes. */
  datatype Event = LoginWith(t: string) | LogOut | RunEffect

  function Step(s: Session, e: Event, decode: string -> Claims, stringify: Claims -> string): (r: Session)
    ensures Derived(s, decode) ==> Derived(r, decode)
    ensures Settled(r, decode)
  {
    match e
    case LoginWith(t) => Login(s, t, decode, stringify)
    case LogOut => Logout(s)
    case RunEffect => Effect(s, decode)
  }

  function Run(s: Session, es: seq<Event>, decode: string -> Claims, stringify: Claims -> string): (r: Session)
    decreases |es|
  {
    if es == [] then s else Run(Step(s, es[0], decode, stringify), es[1..], decode, stringify)
  }

  /** Every sequence of logins, logouts and effect runs keeps `user` derived from `token`. */
  lemma {:induction false} RunKeepsDerived(s: Session, es: seq<Event>, decode: string -> Claims, stringify: Claims -> string)
    requires Derived(s, decode)
    ensures Derived(Run(s, es, decode, stringify), decode)
    decreases |es|
  {
    if es != [] {
      RunKeepsDerived(Step(s, es[0], decode, stringify), es[1..], decode, stringify);
    }
  }

  /** Hence in every reachable state `user` is null or the decoding of `token`. */
  lemma ReachableIsDerived(storage: Storage, es: seq<Event>, decode: string -> Claims, stringify: Claims -> string)
    ensures Derived(Run(Initial(storage), es, decode, stringify), decode)
  {
    RunKeepsDerived(Initial(storage), es, decode, stringify);
  }

  /** After any non-empty sequence of events the session is settled. */
  lemma {:induction false} RunSettles(s: Session, es: seq<Event>, decode: string -> Claims, stringify: Claims -> string)
    requires es != []
    ensures Settled(Run(s, es, decode, stringify), decode)
    decreases |es|
  {
    if |es| > 1 {
      RunSettles(Step(s, es[0], decode, stringify), es[1..], decode, stringify);
    }
  }

  /** Right after a reload with a stored token the identity is still null: the
      token is held but the user is absent until the effect runs. */
  lemma ReloadedSessionNotYetSettled(storage: Storage, decode: string -> Claims)
    requires Truthy(GetItem(storage, TokenKey))
    ensures !Settled(Initial(storage), decode)
    ensures Settled(Effect(Initial(storage), decode), decode)
  {
  }
}

=== FILE: entities.dfy ===
/**
 Records the backend sends to the client, as far as the modelled decisions
 read them. Every field the code reads with `?.` or `||` may be missing.
 */
module Entities {
  import opened Js

  /** A review row (`movie.Reviews[i]`, `selectedReviews[i]`). */
  datatype Review = Review(id: Option<int>, userId: Option<int>, rating: Option<int>, comment: Option<string>)

  /** A movie row of the catalog or of the detail page. A missing `Reviews`
      list behaves as an empty one in every decision that reads it. */
  datatype Movie = Movie(
    id: int,
    title: Option<string>,
    author: Option<string>,
    director: Option<string>,
    year: Option<int>,
    image: Option<string>,
    categoryId: Option<int>,
    reviews: seq<Review>)

  /** A category row (`{id, category}`). */
  datatype Category = Category(id: Option<int>, name: Option<string>)
}

=== FILE: flows.dfy ===
/**
 Properties that span several components: what a login or a logout means
 for the route table, the navigation bar and the admin shell.
 */
module Flows {
  import opened Js
  import opened AuthContext
  import opened ProtectedRoute
  import opened AppRoutes
  import Navbar
  import AdminLayout

  /** After logging in with an admin token, the public catalog sends the
      admin to the dashboard and the bar hides the Movies link. */
  lemma AdminLoginLeavesCatalog(s: Session, t: string, decode: string -> Claims, stringify: Claims -> string)
    requires t != "" && decode(t).role == Some(AdminRole)
    ensures Resolve("/movies", Login(s, t, decode, stringify)) == GoTo(AdminDashboardPath, false)
    ensures !Navbar.View(Login(s, t, decode, stringify)).moviesLink
  {
    assert "/movies" == Join(["movies"]);
    SplitJoin(["movies"]);
    LowerLiteral("movies");
  }

  /** After a logout both movie routes send the visitor to the login page,
      while the admin pages still render: they have no guard. */
  lemma LogoutLocksMovieRoutes(s: Session, id: string)
    ensures RouteOutcome(Catalog, Logout(s)) == GoTo(LoginPath, true)
    ensures RouteOutcome(Details(id), Logout(s)) == GoTo(LoginPath, true)
    ensures RouteOutcome(AdminUsers, Logout(s)) == Show(Admin(Users))
  {
  }

  /** The admin shell reads the user that `login` stored: provided parsing
      undoes serialising for these claims, its title follows the decoded
      token's e-mail. */
  lemma LayoutFollowsLogin(s: Session, t: string, decode: string -> Claims,
                           stringify: Claims -> string, parse: string -> Option<Claims>)
    requires stringify(decode(t)) != "" && parse(stringify(decode(t))) == Some(decode(t))
    ensures StoredUser(Login(s, t, decode, stringify).storage, parse) == Some(decode(t))
    ensures AdminLayout.SidebarTitle(StoredUser(Login(s, t, decode, stringify).storage, parse)) == "Super Admin"
      <==> decode(t).email.Some? && LowerTrim(decode(t).email.value) == AdminLayout.SuperAdminEmail
  {
  }

  /** After a logout the stored user is gone, so the shell is never in
      super-admin mode. */
  lemma LogoutEndsSuperAdminMode(s: Session, parse: string -> Option<Claims>)
    ensures StoredUser(Logout(s).storage, parse) == None
    ensures AdminLayout.SidebarTitle(StoredUser(Logout(s).storage, parse)) == "CineAdmin"
  {
  }

  /** `ADMIN` lower-cases to the pattern's segment. */
  lemma LowerAdminUpper()
    ensures IsSegment("ADMIN") && ToLower("ADMIN") == "admin"
  {
    var w := "ADMIN";
    assert |ToLower(w)| == 5;
    assert ToLower(w)[0] == LowerChar('A') == 'a';
    assert ToLower(w)[1] == LowerChar('D') == 'd';
    assert ToLower(w)[2] == LowerChar('M') == 'm';
    assert ToLower(w)[3] == LowerChar('I') == 'i';
    assert ToLower(w)[4] == LowerChar('N') == 'n';
  }

  /** `/ADMIN` selects the admin index with the segment as typed. */
  lemma LocateAdminUpper()
    ensures Locate("/ADMIN") == AdminIndex("ADMIN")
  {
    LowerAdminUpper();
    assert "/ADMIN" == Join(["ADMIN"]) + Slashes(0);
    SegmentsOfJoin(["ADMIN"], 0);
  }

  /** `/ADMIN/dashboard` selects the dashboard. */
  lemma LocateAdminUpperDashboard()
    ensures Locate("/ADMIN/dashboard") == AdminDashboard
  {
    LowerAdminUpper();
    DashboardUnder("ADMIN");
    assert "/" + "ADMIN" + "/dashboard" == "/ADMIN/dashboard";
  }

  /** The admin index redirect is relative, so it keeps the case the visitor
      typed: `/ADMIN` leads to `/ADMIN/dashboard`. That path renders the
      dashboard, but the sidebar compares paths exactly and highlights no link. */
  lemma MixedCaseAdminIndex(s: Session)
    ensures Resolve("/ADMIN", s) == GoTo("/ADMIN/dashboard", false)
    ensures Resolve("/ADMIN/dashboard", s) == Show(Admin(Dashboard))
    ensures forall i :: 0 <= i < |AdminLayout.NavLinks| ==> !AdminLayout.Highlighted("/ADMIN/dashboard")[i]
  {
    AdminUpperRedirects(s);
    AdminUpperRenders(s);
  }

  lemma AdminUpperRedirects(s: Session)
    ensures Resolve("/ADMIN", s) == GoTo("/ADMIN/dashboard", false)
  {
    LocateAdminUpper();
    assert "/" + "ADMIN" + "/dashboard" == "/ADMIN/dashboard";
  }

  lemma AdminUpperRenders(s: Session)
    ensures Resolve("/ADMIN/dashboard", s) == Show(Admin(Dashboard))
  {
    LocateAdminUpperDashboard();
  }
}

=== FILE: js.dfy ===
/**
 JavaScript value conventions that the components rely on: optional values
 (`null` / `undefined`), truthiness of strings and form values, the
 `a || fallback` idiom for messages, the settled outcome of an api call, and
 the string normalisation `s.toLowerCase().trim()` used for e-mail matching.
 */
module Js {

  /** A value that may be `null` or `undefined`; the modelled code treats both alike. */
  datatype Option<+T> = None | Some(value: T)

  /** A string in a condition is truthy iff it is present and non-empty. */
  predicate Truthy(s: Option<string>) {
    s.Some? && s.value != ""
  }

  /** `s || fallback` for an optional string. */
  function OrElse(s: Option<string>, fallback: string): (r: string)
    ensures Truthy(s) ==> r == s.value
    ensures !Truthy(s) ==> r == fallback
    ensures fallback != "" ==> r != ""
    ensures r == fallback || Some(r) == s
  {
    if Truthy(s) then s.value else fallback
  }

  /** The settled promise of one api call: resolved, or rejected with the
      `error` string (if any) of the server's response body. */
  datatype Reply = Ok | Err(serverError: Option<string>)

  /** A form value: a string typed by the user, a number copied from a
      record, or a field the record did not have. */
  datatype Field = Text(s: string) | Num(n: int) | Absent

  /** Truthiness of a form value: `""`, `0` and `undefined` are falsy. */
  predicate FieldTruthy(f: Field) {
    match f
    case Text(s) => s != ""
    case Num(n) => n != 0
    case Absent => false
  }

  // ---------------------------------------------------------------------
  // toLowerCase (ASCII letters only)
  // ---------------------------------------------------------------------

  predicate IsUpper(c: char) {
    'A' <= c <= 'Z'
  }

  function LowerChar(c: char): (d: char)
    ensures !IsUpper(d)
    ensures IsUpper(c) ==> d as int == c as int + 32
    ensures !IsUpper(c) ==> d == c
  {
    if IsUpper(c) then (c as int + 32) as char else c
  }

  function ToLower(s: string): (r: string)
    ensures |r| == |s|
    ensures forall i :: 0 <= i < |s| ==> r[i] == LowerChar(s[i])
    // the result holds no upper-case letter, and a string without one is kept
    ensures NoUpper(r)
    ensures NoUpper(s) ==> r == s
  {
    seq(|s|, i requires 0 <= i < |s| => LowerChar(s[i]))
  }

  /** No character of `s` is an upper-case ASCII letter. */
  predicate NoUpper(s: string) {
    forall i :: 0 <= i < |s| ==> !IsUpper(s[i])
  }

  lemma NoUpperConcat(a: string, b: string)
    requires NoUpper(a) && NoUpper(b)
    ensures NoUpper(a + b)
  {
    forall i | 0 <= i < |a + b|
      ensures !IsUpper((a + b)[i])
    {
      if i < |a| {
        assert (a + b)[i] == a[i];
      } else {
        assert (a + b)[i] == b[i - |a|];
      }
    }
  }

  lemma LowerFixesNoUpper(s: string)
    requires NoUpper(s)
    ensures ToLower(s) == s
  {
  }

  // ---------------------------------------------------------------------
  // trim (ECMAScript WhiteSpace and LineTerminator code points)
  // ---------------------------------------------------------------------

  predicate IsWhitespace(c: char) {
    || c == '\t' || c == '\n' || c == '\U{000B}' || c == '\U{000C}' || c == '\r'
    || c == ' ' || c == '\U{00A0}' || c == '\U{1680}'
    || ('\U{2000}' <= c <= '\U{200A}')
    || c == '\U{2028}' || c == '\U{2029}' || c == '\U{202F}' || c == '\U{205F}'
    || c == '\U{3000}' || c == '\U{FEFF}'
  }

  /** Number of whitespace characters at the start of `s`. */
  function LeadingSpace(s: string): (n: nat)
    ensures n <= |s|
    ensures forall i :: 0 <= i < n ==> IsWhitespace(s[i])
    ensures n == |s| || !IsWhitespace(s[n])
  {
    if |s| > 0 && IsWhitespace(s[0]) then 1 + LeadingSpace(s[1..]) else 0
  }

  /** Number of whitespace characters at the end of `s`. */
  function TrailingSpace(s: string): (n: nat)
    ensures n <= |s|
    ensures forall i :: |s| - n <= i < |s| ==> IsWhitespace(s[i])
    ensures n == |s| || !IsWhitespace(s[|s| - n - 1])
  {
    if |s| > 0 && IsWhitespace(s[|s| - 1]) then 1 + TrailingSpace(s[..|s| - 1]) else 0
  }

  /** `s` neither starts nor ends with whitespace. */
  predicate Trimmed(s: string) {
    s == [] || (!IsWhitespace(s[0]) && !IsWhitespace(s[|s| - 1]))
  }

  /** `String.prototype.trim`: `s` without its leading and trailing whitespace. */
  function Trim(s: string): (r: string)
    ensures Trimmed(r)
    ensures LeadingSpace(s) + |r| <= |s|
    ensures r == s[LeadingSpace(s)..LeadingSpace(s) + |r|]
    ensures forall i :: LeadingSpace(s) + |r| <= i < |s| ==> IsWhitespace(s[i])
  {
    var t := s[LeadingSpace(s)..];
    t[..|t| - TrailingSpace(t)]
  }

  lemma {:induction false} LeadingSpaceOfTrimmed(s: string)
    requires Trimmed(s)
    ensures LeadingSpace(s) == 0
  {
  }

  lemma {:induction false} TrailingSpaceOfTrimmed(s: string)
    requires Trimmed(s)
    ensures TrailingSpace(s) == 0
  {
  }

  /** Trimming a string that has nothing to trim leaves it unchanged. */
  lemma TrimFixesTrimmed(s: string)
    requires Trimmed(s)
    ensures Trim(s) == s
  {
    LeadingSpaceOfTrimmed(s);
    TrailingSpaceOfTrimmed(s);
  }

  /** The e-mail normalisation `s.toLowerCase().trim()`. */
  function LowerTrim(s: string): (r: string)
    ensures Trimmed(r) && NoUpper(r)
    ensures |r| <= |s|
  {
    Trim(ToLower(s))
  }

  /** A string is in normal form when normalising it changes nothing. */
  predicate Normalized(s: string) {
    Trimmed(s) && NoUpper(s)
  }

  /** Normal forms are exactly the fixed points of `LowerTrim`. */
  lemma {:induction false} LowerTrimFixesNormalized(s: string)
    ensures LowerTrim(s) == s <==> Normalized(s)
  {
    if Normalized(s) {
      LowerFixesNoUpper(s);
      TrimFixesTrimmed(s);
    }
  }

  /** Normalising twice is normalising once. */
  lemma {:induction false} LowerTrimIdempotent(s: string)
    ensures LowerTrim(LowerTrim(s)) == LowerTrim(s)
  {
    LowerTrimFixesNormalized(LowerTrim(s));
  }
}

=== FILE: login_page.dfy ===
/**
 The login form's submit handler. The server reply is an input: it either
 carries `{ token, user }` or is rejected with an optional `error` string.
 The navigation target is chosen from the reply's `user.role`, not from the
 decoded token.
 */
module LoginPage {
  import opened Js
  import opened AuthContext

  /** The `user` object of a successful reply, as far as the handler reads it. */
  datatype ReplyUser = ReplyUser(role: Option<string>)

  datatype LoginReply =
    | Accepted(token: string, user: Option<ReplyUser>)
    | Rejected(serverError: Option<string>)

  /** The form's `error` and `loading` state. */
  datatype LoginView = LoginView(error: string, loading: bool)

  /** What one settled submission leaves behind. */
  datatype LoginStep = LoginStep(session: Session, view: LoginView, navigateTo: Option<string>)

  const DefaultError: string := "Login failed"
  const AdminHome: string := "/admin/dashboard"
  const UserHome: string := "/movies"

  /** The form's first render. */
  const InitialView: LoginView := LoginView("", false)

  /** The form first renders with no error and its button enabled. */
  lemma InitialViewIdle()
    ensures InitialView.error == "" && !InitialView.loading
  {
  }

  /** `setLoading(true)` before the request; nothing else changes. */
  function BeginSubmit(v: LoginView): (r: LoginView)
    ensures r.loading && r.error == v.error
  {
    v.(loading := true)
  }

  /** Where a successful login goes, by the reply's role. */
  function Destination(u: ReplyUser): (to: string)
    ensures to == AdminHome <==> u.role == Some("admin")
    ensures to == UserHome <==> u.role != Some("admin")
  {
    if u.role == Some("admin") then AdminHome else UserHome
  }

  /** The rest of the handler once the request settles. A successful reply
      without `user` still logs in: `login(token)` runs before `user.role`
      throws, and the throw lands in the same `catch` as a rejection. */
  function FinishSubmit(s: Session, v: LoginView, reply: LoginReply,
                        decode: string -> Claims, stringify: Claims -> string): (r: LoginStep)
    // `loading` is cleared on every path
    ensures !r.view.loading
    // success: logged in with exactly the reply's token, error untouched
    ensures reply.Accepted? ==> r.session == Login(s, reply.token, decode, stringify)
    ensures reply.Accepted? && reply.user.Some? ==>
      r.navigateTo == Some(Destination(reply.user.value)) && r.view.error == v.error
    // a reply without user: logged in, but reported as a failure and no navigation
    ensures reply.Accepted? && reply.user.None? ==>
      r.navigateTo == None && r.view.error == DefaultError
    // rejection: no login, no navigation, the server's message or the default
    ensures reply.Rejected? ==> r.session == s && r.navigateTo == None
    ensures reply.Rejected? && Truthy(reply.serverError) ==> r.view.error == reply.serverError.value
    ensures reply.Rejected? && !Truthy(reply.serverError) ==> r.view.error == DefaultError
  {
    match reply
    case Accepted(t, user) =>
      var s' := Login(s, t, decode, stringify);
      if user.Some? then LoginStep(s', v.(loading := false), Some(Destination(user.value)))
      else LoginStep(s', LoginView(DefaultError, false), None)
    case Rejected(e) =>
      LoginStep(s, LoginView(OrElse(e, DefaultError), false), None)
  }

  /** After a failed submission the form always shows some message. */
  lemma FailureAlwaysExplained(s: Session, v: LoginView, reply: LoginReply,
                               decode: string -> Claims, stringify: Claims -> string)
    requires FinishSubmit(s, v, reply, decode, stringify).navigateTo.None?
    ensures FinishSubmit(s, v, reply, decode, stringify).view.error != ""
  {
  }
}

=== FILE: manage_movies.dfy ===
/**
 The admin catalog page: its pagination state, the page-jump and step
 buttons, the page selector, the fetch that refreshes the page, and the
 movie form with its submit payload. `parseInt(x, 10)` on a typed string is
 an uninterpreted `parseInt` returning `None` for `NaN`.
 */
module ManageMovies {
  import opened Js
  import opened Entities

  /** The page size sent with every fetch. */
  const Limit: int := 4
  const JumpSize: int := 5

  datatype CatalogState = CatalogState(movies: seq<Movie>, totalPages: int, currentPage: int, loading: bool)

  /** The first render: no movies, page 1 of 1, loading. */
  const InitialState: CatalogState := CatalogState([], 1, 1, true)

  /** The current page lies within the pages the server reported. */
  predicate InRange(s: CatalogState) {
    1 <= s.currentPage <= s.totalPages
  }

  function Min(a: int, b: int): (m: int) { if a <= b then a else b }
  function Max(a: int, b: int): (m: int) { if a >= b then a else b }

  // ---------------------------------------------------------------------
  // Fetching a page
  // ---------------------------------------------------------------------

  /** The query parameters of `GET /movies`. */
  datatype Query = Query(page: int, limit: int)

  function QueryFor(s: CatalogState): (q: Query)
    ensures q.page == s.currentPage && q.limit == Limit
  {
    Query(s.currentPage, Limit)
  }

  /** A response body: `{ movies, totalPages }`, or a bare array of movies. */
  datatype MoviesBody = Paged(movies: seq<Movie>, totalPages: Option<int>) | Bare(items: seq<Movie>)

  datatype FetchResult = Loaded(body: MoviesBody) | LoadFailed

  function BeginFetch(s: CatalogState): (r: CatalogState)
    ensures r.loading
    ensures r.movies == s.movies && r.totalPages == s.totalPages && r.currentPage == s.currentPage
  {
    s.(loading := true)
  }

  /** `res.data.totalPages || 1`. */
  function TotalPagesOf(body: MoviesBody): (n: int)
    ensures body.Paged? && body.totalPages.Some? && body.totalPages.value != 0 ==> n == body.totalPages.value
    ensures body.Bare? || body.totalPages.None? || body.totalPages == Some(0) ==> n == 1
  {
    match body
    case Paged(_, Some(n)) => if n != 0 then n else 1
    case _ => 1
  }

  /** `res.data.movies || res.data`. */
  function MoviesOf(body: MoviesBody): (ms: seq<Movie>)
    ensures body.Paged? ==> ms == body.movies
    ensures body.Bare? ==> ms == body.items
  {
    match body
    case Paged(ms, _) => ms
    case Bare(ms) => ms
  }

  /** The fetch settles: the list and page count are replaced on success and
      kept on failure; the current page is never adjusted. */
  function FinishFetch(s: CatalogState, res: FetchResult): (r: CatalogState)
    ensures !r.loading
    ensures r.currentPage == s.currentPage
    ensures res.LoadFailed? ==> r.movies == s.movies && r.totalPages == s.totalPages
    ensures res.Loaded? ==> r.movies == MoviesOf(res.body) && r.totalPages == TotalPagesOf(res.body)
  {
    match res
    case Loaded(body) => CatalogState(MoviesOf(body), TotalPagesOf(body), s.currentPage, false)
    case LoadFailed => s.(loading := false)
  }

  /** The page count is at least 1 after any fetch, unless the server itself
      reported a negative count. */
  lemma FetchKeepsPageCountPositive(s: CatalogState, res: FetchResult)
    requires s.totalPages >= 1
    requires res.Loaded? && res.body.Paged? && res.body.totalPages.Some? ==> res.body.totalPages.value >= 0
    ensures FinishFetch(s, res).totalPages >= 1
  {
  }

  /** A fetch can leave the current page beyond the last page: nothing clamps it. */
  lemma FetchCanLeavePageOutOfRange()
    ensures InRange(CatalogState([], 3, 3, true))
    ensures !InRange(FinishFetch(CatalogState([], 3, 3, true), Loaded(Paged([], Some(2)))))
  {
  }

  // ---------------------------------------------------------------------
  // Page navigation
  // ---------------------------------------------------------------------

  datatype Direction = Forward | Backward

  /** `handleJump`: five pages either way, raised to 1 and then lowered to
      `totalPages`, in that order. */
  function JumpTarget(current: int, totalPages: int, dir: Direction): (p: int)
    ensures totalPages >= 1 ==> 1 <= p <= totalPages
    ensures totalPages < 1 ==> p == totalPages
    ensures 1 <= current <= totalPages && dir == Forward ==> p == Min(current + JumpSize, totalPages)
    ensures 1 <= current <= totalPages && dir == Backward ==> p == Max(current - JumpSize, 1)
  {
    var p := if dir == Forward then current + JumpSize else current - JumpSize;
    var p := if p < 1 then 1 else p;
    if p > totalPages then totalPages else p
  }

  datatype Button = Prev | Next | JumpBack | JumpForward

  /** A button is enabled unless its `disabled` expression holds: the step
      buttons test `=== 1` and `=== totalPages`, the jumps `<= 1` and
      `>= totalPages`. */
  function Enabled(s: CatalogState, b: Button): (e: bool)
    // on an in-range page the four tests agree: a button is enabled exactly
    // when a page lies in its direction
    ensures InRange(s) ==>
      (e <==> if b == Prev || b == JumpBack then s.currentPage > 1 else s.currentPage < s.totalPages)
  {
    match b
    case Prev => s.currentPage != 1
    case Next => s.currentPage != s.totalPages
    case JumpBack => s.currentPage > 1
    case JumpForward => s.currentPage < s.totalPages
  }

  /** Clicking a button: a disabled one does nothing; only the page changes. */
  function Click(s: CatalogState, b: Button): (r: CatalogState)
    ensures r.movies == s.movies && r.totalPages == s.totalPages && r.loading == s.loading
    ensures !Enabled(s, b) ==> r == s
    ensures Enabled(s, b) && b == Prev ==> r.currentPage == s.currentPage - 1
    ensures Enabled(s, b) && b == Next ==> r.currentPage == s.currentPage + 1
    ensures Enabled(s, b) && b == JumpBack ==> r.currentPage == JumpTarget(s.currentPage, s.totalPages, Backward)
    ensures Enabled(s, b) && b == JumpForward ==> r.currentPage == JumpTarget(s.currentPage, s.totalPages, Forward)
    ensures InRange(s) ==> InRange(r)
  {
    if !Enabled(s, b) then s
    else
      match b
      case Prev => s.(currentPage := s.currentPage - 1)
      case Next => s.(currentPage := s.currentPage + 1)
      case JumpBack => s.(currentPage := JumpTarget(s.currentPage, s.totalPages, Backward))
      case JumpForward => s.(currentPage := JumpTarget(s.currentPage, s.totalPages, Forward))
  }

  /** The page the catalog starts on is in range, and it starts loading. */
  lemma InitialStateInRange()
    ensures InRange(InitialState) && InitialState.loading
    ensures Enabled(InitialState, Prev) == false && Enabled(InitialState, Next) == false
  {
  }

  /** Prev is disabled exactly on page 1 and Next exactly on the last page. */
  lemma StepButtonsAtTheEnds(s: CatalogState)
    requires InRange(s)
    ensures !Enabled(s, Prev) <==> s.currentPage == 1
    ensures !Enabled(s, Next) <==> s.currentPage == s.totalPages
  {
  }

  /** Past the last page Next stays enabled and moves further away: the
      test is `===`, not `>=`. With more than one page the bar, and so the
      button, is on screen. */
  lemma NextEnabledBeyondLastPage(s: CatalogState)
    requires s.totalPages > 1 && s.currentPage > s.totalPages
    ensures Enabled(s, Next)
    ensures Click(s, Next).currentPage > s.currentPage
  {
  }

  /** Choosing an entry of the page selector. */
  function Choose(s: CatalogState, page: int): (r: CatalogState)
    requires 1 <= page <= s.totalPages
    ensures InRange(r) && r.currentPage == page
    ensures r.movies == s.movies && r.totalPages == s.totalPages
  {
    s.(currentPage := page)
  }

  /** The pagination bar sits in the branch rendered once loading is over,
      and is shown only when there is more than one page; its selector offers
      the pages `1..totalPages` in order. */
  method PaginationOptions(totalPages: int, loading: bool) returns (shown: bool, pages: seq<int>)
    ensures shown <==> !loading && totalPages > 1
    ensures shown ==> |pages| == totalPages
    ensures shown ==> forall i :: 0 <= i < |pages| ==> pages[i] == i + 1
    ensures !shown ==> pages == []
  {
    shown := !loading && totalPages > 1;
    pages := [];
    if !shown {
      return;
    }
    var i := 0;
    while i < totalPages
      invariant 0 <= i <= totalPages
      invariant |pages| == i
      invariant forall j :: 0 <= j < i ==> pages[j] == j + 1
    {
      pages := pages + [i + 1];
      i := i + 1;
    }
  }

  // ---------------------------------------------------------------------
  // The movie form and its payload
  // ---------------------------------------------------------------------

  datatype MovieForm = MovieForm(title: Field, author: Field, director: Field, year: Field, image: Field, categoryId: Field)

  /** A string field copied as is (`movie.title`). */
  function FieldOf(v: Option<string>): (f: Field)
    ensures v.Some? ==> f == Text(v.value)
    ensures v.None? ==> f == Absent
  {
    if v.Some? then Text(v.value) else Absent
  }

  /** `value || ""` for a string. */
  function TextOrEmpty(v: Option<string>): (f: Field)
    ensures f.Text? && (Truthy(v) ==> f.s == v.value) && (!Truthy(v) ==> f.s == "")
  {
    Text(OrElse(v, ""))
  }

  /** `value || ""` for a number. */
  function NumOrEmpty(v: Option<int>): (f: Field)
    ensures v.Some? && v.value != 0 ==> f == Num(v.value)
    ensures v.None? || v == Some(0) ==> f == Text("")
  {
    if v.Some? && v.value != 0 then Num(v.value) else Text("")
  }

  /** The form of "Add New Movie": blank, with the first category preselected. */
  function NewMovieForm(categories: seq<Category>): (f: MovieForm)
    ensures f.title == Text("") && f.author == Text("") && f.director == Text("")
    ensures f.year == Text("") && f.image == Text("")
    ensures |categories| > 0 && categories[0].id.Some? && categories[0].id.value != 0 ==> f.categoryId == Num(categories[0].id.value)
    ensures |categories| > 0 && (categories[0].id.None? || categories[0].id == Some(0)) ==> f.categoryId == Text("")
    ensures categories == [] ==> f.categoryId == Text("")
  {
    MovieForm(Text(""), Text(""), Text(""), Text(""), Text(""),
              if categories == [] then Text("") else NumOrEmpty(categories[0].id))
  }

  /** `handleOpenEdit`: title and category copied as they are, the four other
      fields defaulted to `""` when missing. */
  function EditForm(m: Movie): (f: MovieForm)
    ensures f.title == FieldOf(m.title) && f.categoryId == (if m.categoryId.Some? then Num(m.categoryId.value) else Absent)
    ensures f.author == TextOrEmpty(m.author) && f.director == TextOrEmpty(m.director)
    ensures f.image == TextOrEmpty(m.image) && f.year == NumOrEmpty(m.year)
  {
    MovieForm(FieldOf(m.title), TextOrEmpty(m.author), TextOrEmpty(m.director),
              NumOrEmpty(m.year), TextOrEmpty(m.image),
              if m.categoryId.Some? then Num(m.categoryId.value) else Absent)
  }

  /** A number in the payload: `null`, `NaN` or an integer. */
  datatype Number = Null | NaN | Int(n: int)

  /** `parseInt(f, 10)`: a number field is taken as is, a missing one is `NaN`. */
  function ParseField(f: Field, parseInt: string -> Option<int>): (r: Number)
    ensures r != Null
    ensures f.Num? ==> r == Int(f.n)
    ensures f.Absent? ==> r == NaN
    ensures f.Text? ==> (r == NaN <==> parseInt(f.s).None?)
    ensures f.Text? && parseInt(f.s).Some? ==> r == Int(parseInt(f.s).value)
  {
    match f
    case Num(n) => Int(n)
    case Absent => NaN
    case Text(s) => if parseInt(s).Some? then Int(parseInt(s).value) else NaN
  }

  datatype MoviePayload = MoviePayload(title: Field, author: Field, director: Field, year: Number, image: Field, categoryId: Number)

  /** The submit payload: the form with `year` and `category_id` coerced. */
  function Payload(f: MovieForm, parseInt: string -> Option<int>): (p: MoviePayload)
    ensures p.title == f.title && p.author == f.author && p.director == f.director && p.image == f.image
    ensures p.year == Null <==> !FieldTruthy(f.year)
    ensures FieldTruthy(f.year) ==> p.year == ParseField(f.year, parseInt)
    ensures p.categoryId == ParseField(f.categoryId, parseInt)
  {
    MoviePayload(f.title, f.author, f.director,
                 if FieldTruthy(f.year) then ParseField(f.year, parseInt) else Null,
                 f.image, ParseField(f.categoryId, parseInt))
  }

  /** Saving an unedited edit form sends the movie's own year and category
      back, whatever `parseInt` does: neither field goes through parsing. */
  lemma EditedMovieRoundTrip(m: Movie, parseInt: string -> Option<int>)
    ensures Payload(EditForm(m), parseInt).year ==
      (if m.year.Some? && m.year.value != 0 then Int(m.year.value) else Null)
    ensures Payload(EditForm(m), parseInt).categoryId ==
      (if m.categoryId.Some? then Int(m.categoryId.value) else NaN)
    ensures Payload(EditForm(m), parseInt).title == FieldOf(m.title)
    ensures Truthy(m.author) ==> Payload(EditForm(m), parseInt).author == Text(m.author.value)
  {
  }

  /** Create or update, by the form's mode. */
  datatype SaveRequest = Create(payload: MoviePayload) | Update(id: Option<int>, payload: MoviePayload)

  datatype SaveStep = SaveStep(request: SaveRequest, modalOpen: bool, refetch: bool, alert: Option<string>)

  /** `handleSubmit`: one request; on success the modal closes and the page is
      fetched again; on failure the modal stays open with an alert. */
  function SaveMovie(isEditing: bool, selectedId: Option<int>, f: MovieForm,
                     parseInt: string -> Option<int>, reply: Reply): (r: SaveStep)
    ensures r.request.payload == Payload(f, parseInt)
    ensures r.request.Update? <==> isEditing
    ensures isEditing ==> r.request.id == selectedId
    ensures reply.Ok? ==> !r.modalOpen && r.refetch && r.alert == None
    ensures reply.Err? ==> r.modalOpen && !r.refetch && r.alert.Some?
  {
    var p := Payload(f, parseInt);
    var req := if isEditing then Update(selectedId, p) else Create(p);
    match reply
    case Ok => SaveStep(req, false, true, None)
    case Err(e) => SaveStep(req, true, false, Some("Error: " + OrElse(e, "Check fields")))
  }
  // ---------------------------------------------------------------------
  // Categories, the review viewer and deletion
  // ---------------------------------------------------------------------

  /** `fetchCategories`: `res.data || []` on success, the old list on failure. */
  function FinishFetchCategories(categories: seq<Category>, rows: Option<Option<seq<Category>>>): (r: seq<Category>)
    ensures rows.None? ==> r == categories
    ensures rows.Some? && rows.value.Some? ==> r == rows.value.value
    ensures rows.Some? && rows.value.None? ==> r == []
  {
    match rows
    case None => categories
    case Some(body) => if body.Some? then body.value else []
  }

  datatype ReviewsModal = ReviewsModal(open: bool, reviews: seq<Review>, movieTitle: Option<string>)

  /** `handleShowReviews(movie)`: the modal opens with the fetched reviews
      (`res.data || []`) and the movie's title; on failure only an alert. */
  function ShowReviews(modal: ReviewsModal, m: Movie, rows: Option<Option<seq<Review>>>): (r: (ReviewsModal, bool))
    ensures rows.None? ==> r.0 == modal && r.1
    ensures rows.Some? ==> !r.1 && r.0.open && r.0.movieTitle == m.title
    ensures rows.Some? && rows.value.Some? ==> r.0.reviews == rows.value.value
    ensures rows.Some? && rows.value.None? ==> r.0.reviews == []
  {
    match rows
    case None => (modal, true)
    case Some(body) => (ReviewsModal(true, if body.Some? then body.value else [], m.title), false)
  }

  datatype MovieDeleteStep = MovieDeleteStep(requestSent: bool, refetch: bool, alert: bool)

  /** `handleDelete(id)` for a movie: nothing without confirmation; then one
      request, a re-fetch of the page on success and an alert on failure. */
  function DeleteMovie(confirmed: bool, reply: Reply): (r: MovieDeleteStep)
    ensures r.requestSent <==> confirmed
    ensures r.refetch <==> confirmed && reply.Ok?
    ensures r.alert <==> confirmed && reply.Err?
  {
    if !confirmed then MovieDeleteStep(false, false, false)
    else MovieDeleteStep(true, reply.Ok?, reply.Err?)
  }
}

=== FILE: manage_users.dfy ===
/**
 The user management page: the super-admin policy (a fixed e-mail address,
 compared after `toLowerCase().trim()`), which promote / demote / delete
 controls each row offers, the role badge, and the delete handler that
 refuses the super admin locally and otherwise filters the deleted id out.
 */
module ManageUsers {
  import opened Js
  import opened AuthContext

  const SuperAdminEmail: string := "tewodrosayalew111@gmail.com"

  /** A row of `GET /auth/users`: `{ id, name, email, Role: { name } }`. */
  datatype UserRow = UserRow(id: int, name: Option<string>, email: Option<string>, roleName: Option<string>)

  /** `x?.toLowerCase().trim() || ""` for an optional e-mail. */
  function NormalizeEmail(email: Option<string>): (r: string)
    ensures email.None? ==> r == ""
    ensures email.Some? ==> r == LowerTrim(email.value)
    ensures Normalized(r)
  {
    if email.Some? then LowerTrim(email.value) else ""
  }

  /** The constant has no upper-case letter, shown piece by piece. */
  lemma SuperAdminEmailNoUpper()
    ensures NoUpper(SuperAdminEmail)
  {
    var a, b, c, d, e, f := "tewod", "rosay", "alew1", "11@gm", "ail.c", "om";
    assert SuperAdminEmail == a + b + c + d + e + f;
    assert NoUpper(a) && NoUpper(b) && NoUpper(c) && NoUpper(d) && NoUpper(e) && NoUpper(f);
    NoUpperConcat(a, b);
    NoUpperConcat(a + b, c);
    NoUpperConcat(a + b + c, d);
    NoUpperConcat(a + b + c + d, e);
    NoUpperConcat(a + b + c + d + e, f);
  }

  lemma SuperAdminEmailTrimmed()
    ensures Trimmed(SuperAdminEmail) && SuperAdminEmail != ""
  {
    assert SuperAdminEmail[0] == 't';
    assert SuperAdminEmail[|SuperAdminEmail| - 1] == 'm';
  }

  /** The constant is already in normal form, so normalising it is a no-op. */
  lemma SuperAdminEmailNormalized()
    ensures Normalized(SuperAdminEmail)
    ensures LowerTrim(SuperAdminEmail) == SuperAdminEmail
    ensures SuperAdminEmail != ""
  {
    SuperAdminEmailNoUpper();
    SuperAdminEmailTrimmed();
    LowerTrimFixesNormalized(SuperAdminEmail);
  }

  /** Whether an e-mail names the super admin, whatever its case and padding. */
  predicate IsSuperEmail(email: Option<string>) {
    NormalizeEmail(email) == LowerTrim(SuperAdminEmail)
  }

  /** The viewer's status, read from the stored user. */
  function IsSuperAdmin(currentUser: Option<Claims>): (b: bool)
    ensures currentUser.None? || currentUser.value.email.None? ==> !b
    ensures currentUser.Some? && currentUser.value.email.Some? ==>
      (b <==> LowerTrim(currentUser.value.email.value) == SuperAdminEmail)
  {
    SuperAdminEmailNormalized();
    IsSuperEmail(if currentUser.Some? then currentUser.value.email else None)
  }

  /** `u.Role?.name?.toLowerCase() || ""`. */
  function TargetRole(u: UserRow): (r: string)
    ensures NoUpper(r)
    ensures u.roleName.None? ==> r == ""
    ensures u.roleName.Some? ==> r == ToLower(u.roleName.value)
  {
    if u.roleName.Some? then ToLower(u.roleName.value) else ""
  }

  function IsTargetSuper(u: UserRow): (b: bool)
    ensures u.email.None? ==> !b
    ensures u.email.Some? ==> (b <==> LowerTrim(u.email.value) == SuperAdminEmail)
  {
    SuperAdminEmailNormalized();
    IsSuperEmail(u.email)
  }

  /** The row that carries the constant itself is the super admin's, so the
      lemmas below that assume `IsTargetSuper` speak of a real row. */
  lemma SuperAdminRowExists(id: int, name: Option<string>, roleName: Option<string>)
    ensures IsTargetSuper(UserRow(id, name, Some(SuperAdminEmail), roleName))
  {
    SuperAdminEmailNormalized();
  }

  /** Which action buttons a row shows. */
  datatype Controls = Controls(promote: bool, demote: bool, delete: bool)

  function RowControls(viewerIsSuper: bool, u: UserRow): (c: Controls)
    ensures c.promote <==> viewerIsSuper && TargetRole(u) == "user"
    ensures c.demote <==> viewerIsSuper && TargetRole(u) == "admin" && !IsTargetSuper(u)
    ensures c.delete <==> !IsTargetSuper(u)
  {
    Controls(viewerIsSuper && TargetRole(u) == "user",
             viewerIsSuper && TargetRole(u) == "admin" && !IsTargetSuper(u),
             !IsTargetSuper(u))
  }

  /** A viewer who is not the super admin can never promote or demote. */
  lemma OrdinaryViewerHasNoRoleControls(u: UserRow)
    ensures !RowControls(false, u).promote && !RowControls(false, u).demote
  {
  }

  /** The super admin's row offers neither demotion nor deletion, to anyone. */
  lemma SuperRowIsProtected(viewerIsSuper: bool, u: UserRow)
    requires IsTargetSuper(u)
    ensures !RowControls(viewerIsSuper, u).demote && !RowControls(viewerIsSuper, u).delete
  {
  }

  /** Promotion is not hidden on the super admin's row: when that row's role
      reads `user`, a super viewer is offered Promote on it. */
  lemma SuperRowCanBePromoted(u: UserRow)
    requires IsTargetSuper(u) && TargetRole(u) == "user"
    ensures RowControls(true, u).promote
  {
  }

  /** The role badge text. */
  function Badge(u: UserRow): (text: string)
    ensures IsTargetSuper(u) ==> text == "SUPER ADMIN"
    ensures !IsTargetSuper(u) ==> text == TargetRole(u)
  {
    if IsTargetSuper(u) then "SUPER ADMIN" else TargetRole(u)
  }

  // ---------------------------------------------------------------------
  // Deleting a user
  // ---------------------------------------------------------------------

  /** `users.filter(u => u.id !== id)`. */
  function RemoveId(users: seq<UserRow>, id: int): (r: seq<UserRow>)
    ensures forall u :: u in r <==> u in users && u.id != id
    ensures |r| <= |users|
    decreases |users|
  {
    if users == [] then []
    else if users[0].id != id then [users[0]] + RemoveId(users[1..], id)
    else RemoveId(users[1..], id)
  }

  /** Filtering distributes over concatenation, so the survivors keep their
      relative order. */
  lemma {:induction false} RemoveIdAppend(a: seq<UserRow>, b: seq<UserRow>, id: int)
    ensures RemoveId(a + b, id) == RemoveId(a, id) + RemoveId(b, id)
    decreases |a|
  {
    if a == [] {
      assert a + b == b;
    } else {
      assert (a + b)[0] == a[0];
      assert (a + b)[1..] == a[1..] + b;
      RemoveIdAppend(a[1..], b, id);
    }
  }

  /** A list without the id is left exactly as it was. */
  lemma {:induction false} RemoveAbsentId(users: seq<UserRow>, id: int)
    requires forall i :: 0 <= i < |users| ==> users[i].id != id
    ensures RemoveId(users, id) == users
    decreases |users|
  {
    if users != [] {
      RemoveAbsentId(users[1..], id);
    }
  }

  /** Filtering twice is filtering once. */
  lemma {:induction false} RemoveIdIdempotent(users: seq<UserRow>, id: int)
    ensures RemoveId(RemoveId(users, id), id) == RemoveId(users, id)
  {
    var r := RemoveId(users, id);
    forall i | 0 <= i < |r|
      ensures r[i].id != id
    {
      assert r[i] in r;
    }
    RemoveAbsentId(r, id);
  }

  /** How `handleDelete(id, email)` ends. */
  datatype DeleteResult =
    | Crashed      // `email.toLowerCase()` on a missing e-mail throws before anything else
    | Refused      // the super admin: alert, no request
    | Cancelled    // the confirmation dialog was dismissed
    | Deleted      // request succeeded: the row is filtered out locally
    | DeleteFailed // request failed: alert, list unchanged

  datatype DeleteStep = DeleteStep(result: DeleteResult, users: seq<UserRow>)

  predicate RequestSent(r: DeleteResult) {
    r == Deleted || r == DeleteFailed
  }

  function HandleDelete(users: seq<UserRow>, id: int, email: Option<string>, confirmed: bool, reply: Reply): (r: DeleteStep)
    ensures email.Some? && LowerTrim(email.value) == SuperAdminEmail ==> r.result == Refused
    ensures r.result == Crashed <==> email.None?
    ensures !RequestSent(r.result) ==> r.users == users
    ensures r.result == Deleted ==> r.users == RemoveId(users, id)
    ensures RequestSent(r.result) <==> email.Some? && LowerTrim(email.value) != SuperAdminEmail && confirmed
    ensures RequestSent(r.result) ==> (r.result == Deleted <==> reply.Ok?)
  {
    if email.None? then DeleteStep(Crashed, users)
    else if LowerTrim(email.value) == SuperAdminEmail then DeleteStep(Refused, users)
    else if !confirmed then DeleteStep(Cancelled, users)
    else match reply
      case Ok => DeleteStep(Deleted, RemoveId(users, id))
      case Err(_) => DeleteStep(DeleteFailed, users)
  }

  /** The super admin's row survives its own delete button, whoever clicks,
      whatever they confirm and whatever the server would answer. */
  lemma SuperAdminNeverDeleted(users: seq<UserRow>, u: UserRow, confirmed: bool, reply: Reply)
    requires IsTargetSuper(u)
    ensures HandleDelete(users, u.id, u.email, confirmed, reply).result == Refused
    ensures HandleDelete(users, u.id, u.email, confirmed, reply).users == users
  {
  }

  // ---------------------------------------------------------------------
  // Promotion, demotion and the list refresh
  // ---------------------------------------------------------------------

  datatype RoleChange = Promote | Demote

  /** `PUT /auth/promote/:id` or `/auth/demote/:id`. */
  datatype RoleRequest = RoleRequest(change: RoleChange, id: int)

  datatype RoleStep = RoleStep(request: Option<RoleRequest>, refetch: bool, alert: bool)

  /** `handlePromote` / `handleDemote`: after confirmation the request is sent
      for any id; the handler itself has no super-admin check. */
  function HandleRoleChange(change: RoleChange, id: int, confirmed: bool, reply: Reply): (r: RoleStep)
    ensures r.request.Some? <==> confirmed
    ensures confirmed ==> r.request == Some(RoleRequest(change, id))
    ensures r.refetch <==> confirmed && reply.Ok?
    ensures r.alert <==> confirmed && reply.Err?
  {
    if !confirmed then RoleStep(None, false, false)
    else RoleStep(Some(RoleRequest(change, id)), reply.Ok?, reply.Err?)
  }

  datatype UsersState = UsersState(users: seq<UserRow>, loading: bool)

  /** What a settled user-list fetch leaves behind, and whether it alerted. */
  datatype UsersFetchStep = UsersFetchStep(state: UsersState, alert: bool)

  /** `fetchUsers` once the request settles (`Some(rows)` on success). A
      failure alerts "Error loading user list." and keeps the list. */
  function FinishFetchUsers(s: UsersState, rows: Option<seq<UserRow>>): (r: UsersFetchStep)
    ensures !r.state.loading
    ensures rows.Some? ==> r.state.users == rows.value
    ensures rows.None? ==> r.state.users == s.users
    ensures r.alert <==> rows.None?
  {
    if rows.Some? then UsersFetchStep(UsersState(rows.value, false), false)
    else UsersFetchStep(s.(loading := false), true)
  }
}

=== FILE: movie_details.dfy ===
/**
 The movie detail page's review section: the "already reviewed" test, the
 choice between the review form, the thank-you notice and the login prompt,
 and the submit handler with its draft reset and re-fetch toggle.
 */
module MovieDetails {
  import opened Js
  import opened Entities
  import opened AuthContext

  /** `user?.id`: absent when there is no user or the claim is missing. */
  function UserId(user: Option<Claims>): (id: Option<int>)
    ensures user.None? ==> id == None
    ensures user.Some? ==> id == user.value.id
  {
    if user.Some? then user.value.id else None
  }

  /** `reviews.some(rev => rev.user_id === id)`, with JavaScript's
      `undefined === undefined`: a review without `user_id` matches a
      caller without an id. */
  function AnyReviewBy(reviews: seq<Review>, id: Option<int>): (b: bool)
    ensures b <==> exists i :: 0 <= i < |reviews| && reviews[i].userId == id
    decreases |reviews|
  {
    if reviews == [] then false
    else reviews[0].userId == id || AnyReviewBy(reviews[1..], id)
  }

  function HasReviewed(m: Movie, user: Option<Claims>): (b: bool)
    ensures b <==> exists i :: 0 <= i < |m.reviews| && m.reviews[i].userId == UserId(user)
  {
    AnyReviewBy(m.reviews, UserId(user))
  }

  /** Adding a review to the list can only add a match, never remove one. */
  lemma {:induction false} AnyReviewByAppend(reviews: seq<Review>, extra: seq<Review>, id: Option<int>)
    ensures AnyReviewBy(reviews + extra, id) <==> AnyReviewBy(reviews, id) || AnyReviewBy(extra, id)
    decreases |reviews|
  {
    if reviews != [] {
      assert (reviews + extra)[1..] == reviews[1..] + extra;
      AnyReviewByAppend(reviews[1..], extra, id);
    } else {
      assert reviews + extra == extra;
    }
  }

  /** The three mutually exclusive endings of the page. */
  datatype Panel = ReviewForm | AlreadyReviewed | LoginPrompt

  function PanelFor(token: Option<string>, hasReviewed: bool): (p: Panel)
    ensures p == ReviewForm <==> Truthy(token) && !hasReviewed
    ensures p == AlreadyReviewed <==> Truthy(token) && hasReviewed
    ensures p == LoginPrompt <==> !Truthy(token)
  {
    if Truthy(token) && !hasReviewed then ReviewForm
    else if Truthy(token) && hasReviewed then AlreadyReviewed
    else LoginPrompt
  }

  // ---------------------------------------------------------------------
  // The review draft and its submission
  // ---------------------------------------------------------------------

  /** The draft: `rating` is the number 5 at first and the option's string
      value once the user picks one. */
  datatype Draft = Draft(rating: Field, comment: string)

  const InitialDraft: Draft := Draft(Num(5), "")

  /** The rating options, in the order the select lists them. */
  const RatingChoices: seq<int> := [5, 4, 3, 2, 1]

  lemma RatingChoicesAreOneToFive()
    ensures forall n :: n in RatingChoices <==> 1 <= n <= 5
    ensures |RatingChoices| == 5
  {
  }

  /** Picking an option stores its value attribute, a one-digit string. */
  function ChooseRating(d: Draft, n: int): (r: Draft)
    requires n in RatingChoices
    ensures r.comment == d.comment
    ensures r.rating.Text? && |r.rating.s| == 1 && r.rating.s[0] as int == '0' as int + n
  {
    d.(rating := Text([('0' as int + n) as char]))
  }

  /** The page's state once the movie has loaded. */
  datatype DetailsState = DetailsState(movie: Option<Movie>, draft: Draft, error: string, refresh: bool)

  const DefaultReviewError: string := "Failed to submit review"

  /** `POST /reviews` body: the draft plus the route's id string. */
  datatype ReviewPayload = ReviewPayload(rating: Field, comment: string, movieId: string)

  datatype SubmitStep = SubmitStep(state: DetailsState, request: Option<ReviewPayload>)

  /** Submitting the form. The browser's `required` check on the comment
      stops an empty one before the handler runs. Otherwise the error is
      cleared and the draft is posted; success resets the draft and flips
      `refresh`, failure keeps the draft and shows the server's message. */
  function SubmitReview(s: DetailsState, movieId: string, reply: Reply): (r: SubmitStep)
    ensures s.draft.comment == "" ==> r.state == s && r.request == None
    ensures s.draft.comment != "" ==>
      r.request == Some(ReviewPayload(s.draft.rating, s.draft.comment, movieId))
    ensures s.draft.comment != "" && reply.Ok? ==>
      r.state.draft == InitialDraft && r.state.refresh != s.refresh && r.state.error == ""
    ensures s.draft.comment != "" && reply.Err? ==>
      r.state.draft == s.draft && r.state.refresh == s.refresh
      && r.state.error == OrElse(reply.serverError, DefaultReviewError) && r.state.error != ""
    ensures r.state.movie == s.movie
  {
    if s.draft.comment == "" then SubmitStep(s, None)
    else
      var cleared := s.(error := "");
      var req := Some(ReviewPayload(s.draft.rating, s.draft.comment, movieId));
      match reply
      case Ok => SubmitStep(cleared.(draft := InitialDraft, refresh := !s.refresh), req)
      case Err(e) => SubmitStep(cleared.(error := OrElse(e, DefaultReviewError)), req)
  }

  /** The effect keyed on `[id, refresh]` fetches the movie again when either
      key changed between two renders: the route id or `refresh`. */
  function RefetchDue(idBefore: string, before: DetailsState, idAfter: string, after: DetailsState): (due: bool)
    ensures idBefore != idAfter ==> due
    ensures idBefore == idAfter ==> (due <==> before.refresh != after.refresh)
  {
    idBefore != idAfter || before.refresh != after.refresh
  }

  /** On the same movie, a submission causes a re-fetch exactly when it was
      posted and the server accepted it. */
  lemma SubmitRefetchesOnlyOnSuccess(s: DetailsState, movieId: string, reply: Reply)
    ensures RefetchDue(movieId, s, movieId, SubmitReview(s, movieId, reply).state)
            <==> s.draft.comment != "" && reply.Ok?
  {
  }

  /** The re-fetched movie replaces the shown one. */
  function MovieLoaded(s: DetailsState, m: Movie): (r: DetailsState)
    ensures r.movie == Some(m)
    ensures r.draft == s.draft && r.error == s.error && r.refresh == s.refresh
  {
    s.(movie := Some(m))
  }

  /** What the review section shows: nothing until the movie arrives. */
  function Section(s: DetailsState, token: Option<string>, user: Option<Claims>): (p: Option<Panel>)
    ensures s.movie.None? ==> p == None
    ensures s.movie.Some? ==> p == Some(PanelFor(token, HasReviewed(s.movie.value, user)))
  {
    if s.movie.None? then None else Some(PanelFor(token, HasReviewed(s.movie.value, user)))
  }

  /** A reviewer with a token sees the notice and never the form. */
  lemma ReviewedUserSeesNoForm(m: Movie, token: Option<string>, user: Option<Claims>, i: int)
    requires Truthy(token) && 0 <= i < |m.reviews| && m.reviews[i].userId == UserId(user)
    ensures PanelFor(token, HasReviewed(m, user)) == AlreadyReviewed
  {
  }

  /** A successful submission triggers the re-fetch; once the server's list
      holds the new review by this user, the form gives way to the notice. */
  lemma {:induction false} SubmitThenReload(s: DetailsState, movieId: string, token: Option<string>,
                                            user: Option<Claims>, m: Movie, added: Review)
    requires s.draft.comment != "" && Truthy(token)
    requires s.movie.Some?
    requires m.reviews == s.movie.value.reviews + [added] && added.userId == UserId(user)
    ensures RefetchDue(movieId, s, movieId, SubmitReview(s, movieId, Ok).state)
    ensures Section(MovieLoaded(SubmitReview(s, movieId, Ok).state, m), token, user) == Some(AlreadyReviewed)
  {
    AnyReviewByAppend(s.movie.value.reviews, [added], UserId(user));
    assert AnyReviewBy([added], UserId(user));
  }
}

=== FILE: navbar.dfy ===
/**
 The top navigation bar: which links and controls appear for the session's
 `token` and `user.role`, and the logout button.
 */
module Navbar {
  import opened Js
  import opened AuthContext

  /** Hello, name (role). */
  datatype Greeting = Greeting(name: Option<string>, role: Option<string>)

  datatype NavbarView = NavbarView(moviesLink: bool, registerLink: bool, greeting: Option<Greeting>, logoutButton: bool)

  function View(s: Session): (v: NavbarView)
    ensures v.moviesLink <==> s.user.None? || s.user.value.role != Some("admin")
    ensures v.registerLink <==> !Truthy(s.token)
    ensures v.logoutButton <==> Truthy(s.token)
    ensures v.greeting.Some? <==> Truthy(s.token)
    ensures v.greeting.Some? && s.user.Some? ==> v.greeting.value == Greeting(s.user.value.name, s.user.value.role)
    ensures v.greeting.Some? && s.user.None? ==> v.greeting.value == Greeting(None, None)
  {
    var loggedIn := Truthy(s.token);
    var greeting :=
      if !loggedIn then None
      else if s.user.Some? then Some(Greeting(s.user.value.name, s.user.value.role))
      else Some(Greeting(None, None));
    NavbarView(s.user.None? || s.user.value.role != Some("admin"), !loggedIn, greeting, loggedIn)
  }

  /** Register and Logout never appear together, and one of them always does. */
  lemma RegisterXorLogout(s: Session)
    ensures View(s).registerLink != View(s).logoutButton
  {
  }

  /** The logout button: `logout()` then navigate to the login page. */
  function ClickLogout(s: Session): (r: (Session, string))
    ensures r.0 == Logout(s)
    ensures r.1 == "/login"
  {
    (Logout(s), "/login")
  }

  /** After logout the bar offers Movies and Register and no Logout. */
  lemma LoggedOutBar(s: Session)
    ensures View(ClickLogout(s).0) == NavbarView(true, true, None, false)
  {
  }
}

=== FILE: protected_route.dfy ===
/**
 The `ProtectedRoute` wrapper: a two-rule redirect decision evaluated in
 order, first match wins. The component destructures `role` from the auth
 context value, but that value only carries `token`, `user`, `login` and
 `logout`, so the role it reads is always `undefined`.
 */
module ProtectedRoute {
  import opened Js
  import opened AuthContext

  datatype Guarded = Children | Redirect(to: string)

  const LoginPath: string := "/login"
  const CatalogPath: string := "/movies"
  const AdminRole: string := "admin"

  /** The decision table on the values the component reads. */
  function Decide(token: Option<string>, adminOnly: bool, role: Option<string>): (r: Guarded)
    // rule 1, whatever adminOnly and role are
    ensures !Truthy(token) ==> r == Redirect(LoginPath)
    // rule 2, only reached with a token
    ensures Truthy(token) && adminOnly && role != Some(AdminRole) ==> r == Redirect(CatalogPath)
    // otherwise the children
    ensures r == Children <==> Truthy(token) && (!adminOnly || role == Some(AdminRole))
  {
    if !Truthy(token) then Redirect(LoginPath)
    else if adminOnly && role != Some(AdminRole) then Redirect(CatalogPath)
    else Children
  }

  /** `role` as read from the context value: the key does not exist. */
  function ContextRole(s: Session): (r: Option<string>)
    ensures r == None
  {
    None
  }

  /** `user?.role` from the context value. */
  function UserRole(s: Session): (r: Option<string>)
    ensures s.user.None? ==> r == None
    ensures s.user.Some? ==> r == s.user.value.role
  {
    if s.user.Some? then s.user.value.role else None
  }

  /** The component as written: an `adminOnly` route turns away every
      logged-in caller, admins included. */
  function Guard(s: Session, adminOnly: bool): (r: Guarded)
    ensures !Truthy(s.token) ==> r == Redirect(LoginPath)
    ensures Truthy(s.token) && adminOnly ==> r == Redirect(CatalogPath)
    ensures Truthy(s.token) && !adminOnly ==> r == Children
  {
    Decide(s.token, adminOnly, ContextRole(s))
  }

  /** A logged-in admin is redirected away from an `adminOnly` route. */
  lemma AdminTurnedAwayAsWritten(s: Session)
    requires Truthy(s.token) && UserRole(s) == Some(AdminRole)
    ensures Guard(s, true) == Redirect(CatalogPath)
  {
  }

  /** The guard with the role read from the decoded user, as evidently intended. */
  function GuardByUserRole(s: Session, adminOnly: bool): (r: Guarded)
    ensures !Truthy(s.token) ==> r == Redirect(LoginPath)
    ensures Truthy(s.token) && adminOnly && UserRole(s) == Some(AdminRole) ==> r == Children
    ensures Truthy(s.token) && adminOnly && UserRole(s) != Some(AdminRole) ==> r == Redirect(CatalogPath)
    ensures Truthy(s.token) && !adminOnly ==> r == Children
  {
    Decide(s.token, adminOnly, UserRole(s))
  }

  /** Without `adminOnly` (the only way the route table uses the wrapper) the
      two guards agree on every session. */
  lemma GuardsAgreeWithoutAdminOnly(s: Session)
    ensures Guard(s, false) == GuardByUserRole(s, false)
  {
  }
}
